=== FILE: README.md ===
# Directory processor model

A Dafny model of `DirectoryProcessor.processDirectory`. The processor walks a
directory tree depth-first. For every directory it visits, it writes a
`.Index.md` document made from one entry list:

- each subdirectory contributes a `## folder : <name>` header, then everything
  pushed while processing it, then the summary of the subdirectory's freshly
  written `.Index.md`;
- each source file (one whose extension is in the supported list) contributes
  the file processor's output;
- any other file contributes nothing.

When a directory's children are done, the list is joined with blank lines
(`"\n\n"`) and written to that directory's `.Index.md`.

The entry list is one instance field shared by the whole walk; it is not local
to each call. So a subdirectory's document begins with everything pushed
before the walk entered it. Every later document, the root's included, repeats
all entries pushed so far. The model keeps this behaviour as written.

## Modules

- `FileTree` (`file_tree.dfy`): the tree as a datatype (`File(name, content)`,
  `Dir(name, children)` with children in listing order). Paths are sequences
  of names. It also gives the post-order of a tree's directories and the
  sibling-distinctness of a real filesystem.
- `EntryList` (`entry_list.dfy`): `Join`, as JavaScript's `Array.prototype.join`
  behaves, and the fact that a longer list's text extends a shorter one's.
- `DirectoryProcessor` (`directory_processor.dfy`): the processor itself.
  - `ProcessDirectory` is the method.
  - `ProcessEntries` is its `for` loop, taking the head child then the rest.
  - `ProcessChild` is one loop iteration.
  - `AppendSubIndex`, `ProcessFile`, `IsSourceFile`, `GetFileExtension`,
    `FileContent`, `WriteIndexFileAt` and `WriteFileSync` mirror the methods of
    the same names.
  - `IsSourceFile`, `GetFileExtension` and `FileContent` are plain definitions
    with no contract of their own. They stand for the membership test, for
    `extname` and for `Join`. Their meaning comes from the lemmas about the
    walk and the join: `EntryOrder.FileChild`,
    `EntryOrder.SameExtensionSameTreatment` and
    `WalkOrder.SourceFilesProcessed` for the first two, and `EntryList.Join`
    and `EntryList.JoinSnoc` for the third.

  A `State` threads the shared entry list, the index documents on disk (a map
  from path to text) and a log of effects (file-processor calls, summaries,
  writes).
- `TraversalSpec` (`traversal_spec.dfy`): reference descriptions written
  directly over the tree, independent of the state threading:
  - the sequence of effects a walk must produce;
  - the files handed to the file processor;
  - the slot each pushed entry fills, and the text each slot must hold.
- `WalkOrder` (`walk_order.dfy`): the processor's effects equal the reference
  effects. From this follow:
  - writes happen in post-order, once per directory, with the root last;
  - exactly the source files are processed, in walk order;
  - every subdirectory's document is summarised.
- `EntryOrder` (`entry_order.dfy`): the shared list against the reference
  slots; what one child leaves behind; documents written earlier are prefixes
  of later ones; the existence check never reads a document left from before.
- `DiskState` (`disk_state.dfy`): the documents on disk after a walk are the
  documents before it with the walk's writes applied in order. After a run,
  every directory of the tree holds the text of its one write, and every
  other path is as it was.
- `Rerun` (`rerun.dfy`): a second run over the tree the first run leaves
  behind. In that tree every directory lists its own `.Index.md`, and a
  second walk meets those documents as files. When the extension of
  `.Index.md` is not supported, they are skipped and the second run
  reproduces the first exactly. When it is supported, they reach the file
  processor.
- `Scenarios` (`scenarios.dfy`): one worked listing with an empty
  subdirectory and an unsupported file, and one second run in which a
  stale `.Index.md` is processed as a source file.

The collaborators are fields of `Env` and are left unconstrained:

- Node's `path.extname`;
- the `SUPPORTED_EXTENSIONS` list;
- `FileProcessor.processFile`. The source passes it only the full path and
  the file name (line 96), and it reads the file itself. The model passes the
  file's text from the tree as a third argument, standing for that read;
- the index summarizer's `summarize`.

## Model

| member | source | states |
|---|---|---|
| `DirectoryProcessor.ProcessDirectory` | src/index-md/directory-processor/directory-processor.ts:20-39 | Processing a directory only appends to the shared list and the log. Afterwards the directory's `.Index.md` holds the join of the whole list as it then stands, and the directory's own write is the last effect. |
| `DirectoryProcessor.ProcessEntries` | src/index-md/directory-processor/directory-processor.ts:24-36 | The loop over a listing never removes or reorders entries or effects: the old list and log are prefixes of the new ones. |
| `DirectoryProcessor.ProcessChild` | src/index-md/directory-processor/directory-processor.ts:25-35 | One iteration, for a subdirectory or a file, only appends to the list and the log. |
| `DirectoryProcessor.WriteIndexFileAt` | src/index-md/directory-processor/directory-processor.ts:55-60 | The directory's `.Index.md` is set to the join of the current list, and every other document is kept. The list is untouched, and exactly one write of that list is logged. `DiskState.DirectoryDocs` builds the disk after a walk from these writes. |
| `DirectoryProcessor.WriteFileSync` | src/index-md/directory-processor/directory-processor.ts:62-64 | The written text is the join of the current list whatever `content` is passed. The set of documents on disk gains exactly the written path, and every other document keeps its text. The list is untouched, and one write is logged. |
| `DirectoryProcessor.AppendSubIndex` | src/index-md/directory-processor/directory-processor.ts:83-90 | Never changes a document, and pushes at most one entry. When the subdirectory's `.Index.md` is on disk, the pushed entry is the summary of its text and one summary is logged. Otherwise nothing changes. Its partner `EntryOrder.SubdirectoryChild` shows the document is always present at that point in the walk. |
| `DirectoryProcessor.ProcessFile` | src/index-md/directory-processor/directory-processor.ts:92-97 | Pushes exactly one entry, the file processor's output for this path and name, and logs one call; no document changes. Its partner `EntryOrder.FileChild` shows a supported file takes this path and an unsupported one leaves the state unchanged. |
| `DirectoryProcessor.Run` | src/index-md/directory-processor/directory-processor.ts:7-10 | A fresh processor run on a root leaves the root's document holding the join of every entry pushed, and that write is the run's last effect. |
| `EntryList.Join` | src/index-md/directory-processor/directory-processor.ts:50-52 | Joining: the empty list gives the empty text. Otherwise the text's length is the entries' total length plus one separator per neighbouring pair, and the text starts with the first entry and ends with the last. |
| `EntryList.JoinMonotone` | src/index-md/directory-processor/directory-processor.ts:50-52 | If one entry list is a prefix of another, its document text is a prefix of the other's text. |
| `EntryList.JoinEmpty` | src/index-md/directory-processor/directory-processor.ts:50-52 | A document's text is empty if and only if its entry list is empty or is one empty entry. |
| `EntryList.JoinSnoc` | src/index-md/directory-processor/directory-processor.ts:50-52 | Pushing one entry onto a non-empty list appends exactly a separator and that entry to the text. |
| `FileTree.PostOrderDistinct` | src/index-md/directory-processor/directory-processor.ts:24-30 | In a tree with distinct sibling names, the walk visits no directory twice. |
| `WalkOrder.DirectoryTrace` | src/index-md/directory-processor/directory-processor.ts:20-39 | Processing a directory adds exactly the reference walk's effects to the log, in order: each subdirectory's walk followed by the summary of its document, one file-processor call per source file, then the directory's own write. |
| `WalkOrder.EntriesTrace` | src/index-md/directory-processor/directory-processor.ts:24-36 | The loop adds exactly the reference effects of the listing, in listing order. |
| `WalkOrder.ChildTrace` | src/index-md/directory-processor/directory-processor.ts:28-35 | One child adds exactly its reference effects. An unsupported file adds none. |
| `WalkOrder.WalkProjections` | src/index-md/directory-processor/directory-processor.ts:28-38 | Among a directory walk's effects: the writes are the index documents of its subtree in post-order; the summaries are those of the directories strictly below it; the file-processor calls are its source files in walk order. |
| `WalkOrder.RunTrace` | src/index-md/directory-processor/directory-processor.ts:20-39 | A run's effects are exactly the reference walk of the tree. |
| `WalkOrder.RunWritesPostOrder` | src/index-md/directory-processor/directory-processor.ts:28-38 | A run writes the `.Index.md` of every directory below the root in post-order, each subdirectory before its parent, and then the root's, last. |
| `WalkOrder.EachDirectoryWrittenOnce` | src/index-md/directory-processor/directory-processor.ts:30-38 | With distinct sibling names, no `.Index.md` is written twice in a run. |
| `WalkOrder.SourceFilesProcessed` | src/index-md/directory-processor/directory-processor.ts:32-44 | A run hands the file processor exactly the files with a supported extension, once each, in walk order. |
| `WalkOrder.SubdirectoriesSummarized` | src/index-md/directory-processor/directory-processor.ts:83-89 | A run summarises the document of every directory below the root, in post-order, and never the root's own document. |
| `EntryOrder.DirectoryEntries` | src/index-md/directory-processor/directory-processor.ts:20-39 | Processing a directory appends exactly the entries its reference slots prescribe. For each subdirectory these are: its header, then its subtree's entries, then the summary of the join of everything pushed up to that point. Each source file gives the processor's output. |
| `EntryOrder.EntriesEntries` | src/index-md/directory-processor/directory-processor.ts:24-36 | The loop appends exactly the prescribed entries of the listing, in listing order. |
| `EntryOrder.ChildEntries` | src/index-md/directory-processor/directory-processor.ts:28-35 | One child appends exactly its prescribed entries. A subdirectory's header comes before every entry of its subtree. |
| `EntryOrder.SubdirectoryStep` | src/index-md/directory-processor/directory-processor.ts:28-31 | A subdirectory child is its header, then its own walk, then the summary of the document that walk has just written. That document is always on disk at the check. |
| `EntryOrder.SubdirectoryChild` | src/index-md/directory-processor/directory-processor.ts:28-31 | After a subdirectory child: its header directly follows the entries already there; its document holds the whole list up to the last entry; the last entry is the summary of exactly that document. The log ends with that write and then that summary, so the existence check always succeeds. |
| `EntryOrder.SameExtensionSameTreatment` | src/index-md/directory-processor/directory-processor.ts:41-48 | Whether a file child is skipped depends on its name only through its extension. Two files with the same extension are both skipped or both processed, whatever their names and contents. |
| `EntryOrder.FileChild` | src/index-md/directory-processor/directory-processor.ts:32-35 | A file child changes nothing if and only if its extension is unsupported. A supported file appends exactly the file processor's output, logs one call, and writes no document. |
| `EntryOrder.DirectoryNested` | src/index-md/directory-processor/directory-processor.ts:55-59 | Processing a directory keeps every logged document's entry list a prefix of every later one and of the current list. |
| `EntryOrder.EarlierDocumentsArePrefixes` | src/index-md/directory-processor/directory-processor.ts:50-59 | In a run, a document written earlier is a prefix of every later document, both as an entry list and as text. Each is also a prefix of the root's final document. |
| `EntryOrder.RunEntries` | src/index-md/directory-processor/directory-processor.ts:8 | Starting from the empty list, a run's entries are the reference slots of the whole tree, filled in order. |
| `EntryOrder.DirectoryIgnoresPriorDocuments` | src/index-md/directory-processor/directory-processor.ts:83-86 | The existence check never reads a stale document. For a given listing, the entries and the effects of processing a directory are the same whatever documents were on disk before. An earlier `.Index.md` reaches the walk only as a listed file (see `Rerun`). |
| `EntryOrder.EmptyRootDirectory` | src/index-md/directory-processor/directory-processor.ts:50-59 | An empty root, run by a fresh processor, still gets a document, and that document is the empty text. |
| `EntryOrder.EmptySubdirectory` | src/index-md/directory-processor/directory-processor.ts:28-31 | An empty subdirectory still gets a document. It holds everything pushed before it plus its header, so it is never empty, and its summary is still pushed. |
| `DiskState.DirectoryDocs` | src/index-md/directory-processor/directory-processor.ts:20-39 | Processing a directory changes the documents on disk only through its writes. They become the earlier documents with each new write applied in order. |
| `DiskState.ApplyWritesIdempotent` | src/index-md/directory-processor/directory-processor.ts:62-64 | Applying the same writes a second time leaves the documents unchanged. |
| `DiskState.RunDocuments` | src/index-md/directory-processor/directory-processor.ts:55-64 | After a run over a tree with distinct sibling names, every document the run wrote holds the join of the list its write recorded. Every directory of the tree has its `.Index.md` on disk. |
| `DiskState.RunLeavesOtherDocuments` | src/index-md/directory-processor/directory-processor.ts:55-64 | A run leaves any path that is not the `.Index.md` of a directory of its tree exactly as it found it: present with the same text, or absent. |
| `Rerun.DirectoryStrip` | src/index-md/directory-processor/directory-processor.ts:32-47 | When the extension of `.Index.md` is not supported, index files in the listings change nothing, wherever they stand and whatever their text. |
| `Rerun.RerunWritesSameDocuments` | src/index-md/directory-processor/directory-processor.ts:20-39 | Suppose `.Index.md`'s extension is not supported. A second run whose listing differs from the first only in index files, started on the disk the first run left, ends in exactly the first run's state: the same entries, effects and documents. |
| `Rerun.RelistedAgrees` | src/index-md/directory-processor/directory-processor.ts:55-59 | The listing a run leaves behind shows, in each directory, its `.Index.md` with the text on disk exactly when one is on disk, and no other index file. Apart from index files it is the original listing. |
| `Rerun.RerunOnLeftTree` | src/index-md/directory-processor/directory-processor.ts:20-39 | With `.Index.md`'s extension unsupported, running again over the tree and disk the first run left reproduces the first run exactly. |
| `Scenarios.StaleIndexReprocessed` | src/index-md/directory-processor/directory-processor.ts:41-47 | With `.md` supported, a second run over the tree the first run left gives the root's old `.Index.md` to the file processor. The document `x` becomes `x`, a blank line, `x`. |
| `Scenarios.ListingWithEmptySubdirectory` | src/index-md/directory-processor/directory-processor.ts:20-39 | Worked example: the listing `f1.ts`, empty `d1/`, `f2.ts`, `notes.txt` produces, in order, f1's output, d1's header, the digest of d1's document (f1's output and d1's header), and f2's output. `notes.txt` leaves no trace, and the root is written last. |

## Left out

- Filesystem calls (`readdirSync`, `statSync`, `existsSync`, `readFile`,
  `writeFileSync`) are replaced by values:
  - the listing is the tree's child order;
  - the documents on disk are a map from path to text;
  - `existsSync` is membership in that map;
  - `readFile` is a lookup in that map.

  `readFileSync` is never called by the processor and is not modelled.
- `path.join` string mechanics: a path is a sequence of names.
- `console.log` output.
- The `async`/`Promise` machinery. Every `await` runs to completion before
  the next statement, so the walk is plain recursion.
- Exceptions and error propagation from the filesystem or the collaborators.
  Every call is total in the model.
- Symbolic links, cycles and concurrent changes to the tree during a walk.
- The internals of `FileProcessor`, `IndexGenerator.summarizer` and
  `fileSummarizer`, the contents of `SUPPORTED_EXTENSIONS`, and the semantics
  of Node's `path.extname`. They are code outside this component, so they are
  unconstrained fields of `Env`. The getters `fileProcessor`, `summarizer` and
  `fileSummarizer` therefore have no model of their own.
- Nondeterministic collaborators. Each collaborator is a function of its
  arguments, while the real summarizer calls an AI model whose answers can
  vary. `Rerun.RerunWritesSameDocuments` and `Rerun.RerunOnLeftTree` hold
  only for collaborators that answer the same way every time.
- The order in which `readdirSync` lists a directory. A tree's child order
  is the listing order. `Rerun.Relisted` puts a directory's `.Index.md`
  last, and the results about a second run hold for any position.
- The constructor and the `IndexGenerator` it receives. The model's only use
  of them is the collaborators in `Env`.

## Notes on the behaviour as written

- The entry list is shared across the whole recursion (line 8) rather than
  kept per directory. A subdirectory's document therefore includes every
  entry pushed earlier in the walk, and so does the summary pushed after it.
  `TraversalSpec.Expected` and `EntryOrder.SubdirectoryChild` state this
  exactly.
- `processDirectory` always writes the subdirectory's `.Index.md` before
  `appendSubIndex` checks for it. The existence check therefore always
  succeeds inside a walk, and a summary is pushed for every subdirectory,
  including an empty one. The model keeps the check
  (`DirectoryProcessor.AppendSubIndex`), and `EntryOrder.SubdirectoryChild`
  shows that its false branch is never reached during a walk.
- A document is empty exactly when the list at its write is empty or holds a
  single empty entry (`EntryList.JoinEmpty`). A subdirectory's document is
  never empty, because the list holds its non-empty header
  (`EntryOrder.EmptySubdirectory`). The root's document from a fresh
  processor can be empty in two ways:
  - the root has no subdirectories and no source files
    (`EntryOrder.EmptyRootDirectory`);
  - the root's only entry is a processor output that is itself empty.
- A document left by an earlier run is listed like any other file. If the
  extension of `.Index.md` (`.md` under Node's `path.extname`) is in
  `SUPPORTED_EXTENSIONS`, a second run hands the old document to the file
  processor (`Scenarios.StaleIndexReprocessed`). Otherwise it is skipped, and
  a second run changes nothing (`Rerun.RerunOnLeftTree`).

=== FILE: directory_processor.dfy ===
/**
  The directory processor: a depth-first walk that pushes entries into ONE
  entry list shared by the whole walk and writes, for every directory it
  visits, that list joined with blank lines to the directory's `.Index.md`.

  The filesystem is replaced by values: the directory listing is a tree of
  `Node`s, the index documents on disk are the map `docs`, and every call into
  a collaborator and every write is recorded in an event log. The collaborators
  (the extension function, the supported-extension list, the file processor and
  the index summarizer) are fields of `Env` and stay unconstrained.
 */
module DirectoryProcessor {
  import opened FileTree
  import opened EntryList

  /** Name of the index document every visited directory receives. */
  const IndexFileName: Name := ".Index.md"

  /** The path of the index document inside `dir`. */
  function IndexPath(dir: Path): Path {
    dir + [IndexFileName]
  }

  /** The entry that announces a subdirectory before the walk descends into it. */
  function FolderHeader(name: Name): string {
    "## folder : " + name
  }

  /**
    The collaborators of the processor: `extname` stands for Node's
    `path.extname`, `supportedExtensions` for `SUPPORTED_EXTENSIONS`,
    `processFile` for `FileProcessor.processFile` and `summarize` for the index
    summarizer. The file processor receives the full path and the file name
    and reads the file itself; the third argument of `processFile`, the
    file's text, stands for that read.
   */
  datatype Env = Env(
    extname: Name -> string,
    supportedExtensions: seq<string>,
    processFile: (Path, Name, string) -> string,
    summarize: string -> string)

  /** What the processor does to the world, in the order it does it. */
  datatype Event =
    | FileProcessed(path: Path)
    | IndexSummarized(path: Path)
    | Wrote(path: Path, entries: seq<string>)

  /**
    `entries` is the processor's `indexEntries` field, `docs` the text of each
    index document present on disk (left over from earlier runs or written by
    this one), `log` the events so far. A `Wrote` event records the entry list
    whose join was written.
   */
  datatype State = State(entries: seq<string>, docs: map<Path, string>, log: seq<Event>)

  /** A processor just constructed: its entry list is empty. */
  function Fresh(docs: map<Path, string>): State {
    State([], docs, [])
  }

  function GetFileExtension(env: Env, fileName: Name): string {
    env.extname(fileName)
  }

  /** A file is handled when its extension is one of the supported ones. */
  predicate IsSourceFile(env: Env, fileName: Name) {
    GetFileExtension(env, fileName) in env.supportedExtensions
  }

  /** The text of the document the processor would write now. */
  function FileContent(st: State): string {
    Join(st.entries, Separator)
  }

  /**
    Writes the current entry list to `filePath`. The `content` argument is not
    used: what is written is always the join of the current list.
   */
  function WriteFileSync(st: State, filePath: Path, content: string): (r: State)
    ensures r.entries == st.entries
    ensures filePath in r.docs && r.docs[filePath] == Join(st.entries, Separator)
    ensures forall p :: p in st.docs && p != filePath ==> p in r.docs && r.docs[p] == st.docs[p]
    ensures r.docs.Keys == st.docs.Keys + {filePath}
    ensures r.log == st.log + [Wrote(filePath, st.entries)]
  {
    st.(docs := st.docs[filePath := FileContent(st)], log := st.log + [Wrote(filePath, st.entries)])
  }

  /** Writes the directory's `.Index.md` from the current list; nothing else changes. */
  function WriteIndexFileAt(st: State, dirPath: Path): (r: State)
    ensures r.docs == st.docs[IndexPath(dirPath) := Join(st.entries, Separator)]
    ensures r.entries == st.entries
    ensures r.log == st.log + [Wrote(IndexPath(dirPath), st.entries)]
  {
    WriteFileSync(st, IndexPath(dirPath), FileContent(st))
  }

  /**
    Summarises the index document of the subdirectory `fullPath`, if one is on
    disk, and pushes the summary.
   */
  function AppendSubIndex(env: Env, fullPath: Path, st: State): (r: State)
    ensures r.docs == st.docs
    ensures st.entries <= r.entries && |r.entries| <= |st.entries| + 1
    ensures st.log <= r.log && |r.log| <= |st.log| + 1
    ensures IndexPath(fullPath) in st.docs ==>
      && r.entries == st.entries + [env.summarize(st.docs[IndexPath(fullPath)])]
      && r.log == st.log + [IndexSummarized(IndexPath(fullPath))]
    ensures IndexPath(fullPath) !in st.docs ==> r == st
  {
    var subIndexPath := IndexPath(fullPath);
    if subIndexPath in st.docs then
      var aiSummary := env.summarize(st.docs[subIndexPath]);
      st.(entries := st.entries + [aiSummary], log := st.log + [IndexSummarized(subIndexPath)])
    else
      st
  }

  /** Runs the file processor on one source file and pushes its output. */
  function ProcessFile(env: Env, fullPath: Path, fileName: Name, content: string, st: State): (r: State)
    ensures r.docs == st.docs
    ensures st.entries <= r.entries && |r.entries| == |st.entries| + 1
    ensures r.entries[|st.entries|] == env.processFile(fullPath, fileName, content)
    ensures st.log <= r.log && r.log[|st.log|..] == [FileProcessed(fullPath)]
  {
    st.(entries := st.entries + [env.processFile(fullPath, fileName, content)],
        log := st.log + [FileProcessed(fullPath)])
  }

  /**
    Processes the directory `dirPath`, whose listing is `children`: handles
    every child in listing order, then writes the directory's index document.
   */
  function ProcessDirectory(env: Env, dirPath: Path, children: seq<Node>, st: State): (r: State)
    decreases children, 2
    ensures st.entries <= r.entries && st.log <= r.log
    ensures IndexPath(dirPath) in r.docs && r.docs[IndexPath(dirPath)] == Join(r.entries, Separator)
    ensures |r.log| > |st.log| && r.log[|r.log| - 1] == Wrote(IndexPath(dirPath), r.entries)
  {
    var handled := ProcessEntries(env, dirPath, children, st);
    WriteIndexFileAt(handled, dirPath)
  }

  /** The loop over a directory's listing: the first child, then the rest. */
  function ProcessEntries(env: Env, dirPath: Path, children: seq<Node>, st: State): (r: State)
    decreases children, 1
    ensures st.entries <= r.entries && st.log <= r.log
  {
    if |children| == 0 then st
    else ProcessEntries(env, dirPath, children[1..], ProcessChild(env, dirPath, children[0], st))
  }

  /**
    One iteration of the loop: a subdirectory gets its header, its own walk and
    then the summary of its index document; a source file gets its processed
    text; any other file is skipped.
   */
  function ProcessChild(env: Env, dirPath: Path, child: Node, st: State): (r: State)
    decreases child, 0
    ensures st.entries <= r.entries && st.log <= r.log
  {
    match child
    case Dir(name, children) =>
      var fullPath := dirPath + [name];
      var withHeader := st.(entries := st.entries + [FolderHeader(name)]);
      var visited := ProcessDirectory(env, fullPath, children, withHeader);
      AppendSubIndex(env, fullPath, visited)
    case File(name, content) =>
      if IsSourceFile(env, name) then ProcessFile(env, dirPath + [name], name, content, st)
      else st
  }

  /** A whole run: a fresh processor indexing the tree rooted at `root`. */
  function Run(env: Env, root: Path, children: seq<Node>, docs: map<Path, string>): (r: State)
    ensures IndexPath(root) in r.docs && r.docs[IndexPath(root)] == Join(r.entries, Separator)
    ensures |r.log| > 0 && r.log[|r.log| - 1] == Wrote(IndexPath(root), r.entries)
  {
    ProcessDirectory(env, root, children, Fresh(docs))
  }
}

=== FILE: disk_state.dfy ===
/**
  The index documents on disk after a walk: the documents before it, with
  every write of the walk applied in order. After a run over a tree with
  distinct sibling names, every visited directory holds exactly one index
  document, the one its write produced, and every other path keeps what it
  held before.
 */
module DiskState {
  import opened FileTree
  import opened EntryList
  import opened DirectoryProcessor
  import opened TraversalSpec
  import opened WalkOrder

  /** The documents after the event `e`: a write replaces one document with the join of its list. */
  function Apply(docs: map<Path, string>, e: Event): map<Path, string> {
    if e.Wrote? then docs[e.path := Join(e.entries, Separator)] else docs
  }

  /** The documents after every write of `log`, in order. */
  function ApplyWrites(docs: map<Path, string>, log: seq<Event>): map<Path, string>
    decreases |log|
  {
    if |log| == 0 then docs else ApplyWrites(Apply(docs, log[0]), log[1..])
  }

  lemma {:induction false} ApplyWritesConcat(docs: map<Path, string>, a: seq<Event>, b: seq<Event>)
    ensures ApplyWrites(docs, a + b) == ApplyWrites(ApplyWrites(docs, a), b)
    decreases |a|
  {
    if |a| > 0 {
      assert (a + b)[0] == a[0];
      assert (a + b)[1..] == a[1..] + b;
      ApplyWritesConcat(Apply(docs, a[0]), a[1..], b);
    } else {
      assert a + b == b;
    }
  }

  lemma ApplyWritesSingle(docs: map<Path, string>, e: Event)
    ensures ApplyWrites(docs, [e]) == Apply(docs, e)
  {
    assert [e][1..] == [];
  }

  /** The part of a log added after `a`, split at the intermediate log `b`. */
  lemma SliceSplit(a: seq<Event>, b: seq<Event>, c: seq<Event>)
    requires a <= b && b <= c
    ensures c[|a|..] == b[|a|..] + c[|b|..]
  {
  }

  lemma SliceSnoc(a: seq<Event>, b: seq<Event>, e: Event)
    requires a <= b
    ensures (b + [e])[|a|..] == b[|a|..] + [e]
  {
  }

  /**
    Processing a directory changes the documents on disk only through its
    writes: they are the documents before it with the new writes applied.
   */
  lemma {:induction false} DirectoryDocs(env: Env, dir: Path, children: seq<Node>, st: State)
    decreases children, 2
    ensures var r := ProcessDirectory(env, dir, children, st);
      r.docs == ApplyWrites(st.docs, r.log[|st.log|..])
  {
    var handled := ProcessEntries(env, dir, children, st);
    var r := ProcessDirectory(env, dir, children, st);
    var w := Wrote(IndexPath(dir), handled.entries);
    EntriesDocs(env, dir, children, st);
    assert r.docs == Apply(handled.docs, w) && r.log == handled.log + [w];
    SliceSnoc(st.log, handled.log, w);
    ApplyWritesConcat(st.docs, handled.log[|st.log|..], [w]);
    ApplyWritesSingle(handled.docs, w);
  }

  lemma {:induction false} EntriesDocs(env: Env, dir: Path, children: seq<Node>, st: State)
    decreases children, 1
    ensures var r := ProcessEntries(env, dir, children, st);
      r.docs == ApplyWrites(st.docs, r.log[|st.log|..])
  {
    var r := ProcessEntries(env, dir, children, st);
    if |children| > 0 {
      var mid := ProcessChild(env, dir, children[0], st);
      assert r == ProcessEntries(env, dir, children[1..], mid);
      ChildDocs(env, dir, children[0], st);
      EntriesDocs(env, dir, children[1..], mid);
      SliceSplit(st.log, mid.log, r.log);
      ApplyWritesConcat(st.docs, mid.log[|st.log|..], r.log[|mid.log|..]);
    } else {
      assert r.log[|st.log|..] == [];
    }
  }

  lemma {:induction false} ChildDocs(env: Env, dir: Path, child: Node, st: State)
    decreases child, 0
    ensures var r := ProcessChild(env, dir, child, st);
      r.docs == ApplyWrites(st.docs, r.log[|st.log|..])
  {
    var r := ProcessChild(env, dir, child, st);
    match child
    case Dir(name, sub) =>
      var fullPath := dir + [name];
      var withHeader := st.(entries := st.entries + [FolderHeader(name)]);
      var visited := ProcessDirectory(env, fullPath, sub, withHeader);
      var s := IndexSummarized(IndexPath(fullPath));
      DirectoryDocs(env, fullPath, sub, withHeader);
      assert r.docs == visited.docs && r.log == visited.log + [s];
      SliceSnoc(st.log, visited.log, s);
      ApplyWritesConcat(st.docs, visited.log[|st.log|..], [s]);
      ApplyWritesSingle(visited.docs, s);
    case File(name, content) =>
      if IsSourceFile(env, name) {
        assert r.log[|st.log|..] == [FileProcessed(dir + [name])];
        ApplyWritesSingle(st.docs, FileProcessed(dir + [name]));
      } else {
        assert r.log[|st.log|..] == [];
      }
  }

  /** Applying writes is overriding the earlier documents with what the writes alone produce. */
  lemma {:induction false} ApplyWritesOverride(docs: map<Path, string>, log: seq<Event>)
    ensures ApplyWrites(docs, log) == docs + ApplyWrites(map[], log)
    decreases |log|
  {
    if |log| > 0 {
      var e := log[0];
      var tail := ApplyWrites(map[], log[1..]);
      ApplyWritesOverride(Apply(docs, e), log[1..]);
      ApplyWritesOverride(Apply(map[], e), log[1..]);
      if e.Wrote? {
        var x := Join(e.entries, Separator);
        assert docs[e.path := x] + tail == docs + (map[e.path := x] + tail);
      }
    } else {
      assert docs + map[] == docs;
    }
  }

  /** Applying the same writes a second time changes nothing. */
  lemma ApplyWritesIdempotent(docs: map<Path, string>, log: seq<Event>)
    ensures ApplyWrites(ApplyWrites(docs, log), log) == ApplyWrites(docs, log)
  {
    var written := ApplyWrites(map[], log);
    ApplyWritesOverride(docs, log);
    ApplyWritesOverride(docs + written, log);
    assert (docs + written) + written == docs + written;
  }

  /** A path no write of `log` touches keeps its document, or its absence. */
  lemma {:induction false} ApplyWritesUntouched(docs: map<Path, string>, log: seq<Event>, p: Path)
    requires forall i :: 0 <= i < |log| && log[i].Wrote? ==> log[i].path != p
    ensures p in ApplyWrites(docs, log) <==> p in docs
    ensures p in docs ==> ApplyWrites(docs, log)[p] == docs[p]
    decreases |log|
  {
    if |log| > 0 {
      forall i | 0 <= i < |log[1..]| && log[1..][i].Wrote?
        ensures log[1..][i].path != p
      {
        assert log[1..][i] == log[i + 1];
      }
      ApplyWritesUntouched(Apply(docs, log[0]), log[1..], p);
    }
  }

  /** The last write to a path decides its document. */
  lemma {:induction false} ApplyWritesLast(docs: map<Path, string>, log: seq<Event>, i: nat)
    requires i < |log| && log[i].Wrote?
    requires forall j :: i < j < |log| && log[j].Wrote? ==> log[j].path != log[i].path
    ensures log[i].path in ApplyWrites(docs, log)
    ensures ApplyWrites(docs, log)[log[i].path] == Join(log[i].entries, Separator)
    decreases i
  {
    var rest := log[1..];
    if i == 0 {
      forall k | 0 <= k < |rest| && rest[k].Wrote?
        ensures rest[k].path != log[0].path
      {
        assert rest[k] == log[k + 1];
      }
      ApplyWritesUntouched(Apply(docs, log[0]), rest, log[0].path);
    } else {
      forall j | i - 1 < j < |rest| && rest[j].Wrote?
        ensures rest[j].path != rest[i - 1].path
      {
        assert rest[j] == log[j + 1];
      }
      ApplyWritesLast(Apply(docs, log[0]), rest, i - 1);
    }
  }

  /** The written paths of a log: those of its first event, then those of the rest. */
  lemma WritePathsCons(log: seq<Event>)
    requires |log| > 0
    ensures PathsOf(Steps(log), WriteKind)
         == (if log[0].Wrote? then [log[0].path] else []) + PathsOf(Steps(log[1..]), WriteKind)
  {
    var steps := Steps(log);
    assert steps[0] == StepOf(log[0]);
    assert steps[1..] == Steps(log[1..]);
  }

  /** Every write of a log is among its written paths, and every written path comes from a write. */
  lemma {:induction false} WritePathsOfLog(log: seq<Event>)
    ensures forall i :: 0 <= i < |log| && log[i].Wrote? ==> log[i].path in PathsOf(Steps(log), WriteKind)
    ensures forall p :: p in PathsOf(Steps(log), WriteKind) ==>
      exists i :: 0 <= i < |log| && log[i].Wrote? && log[i].path == p
    decreases |log|
  {
    if |log| > 0 {
      var rest := log[1..];
      WritePathsCons(log);
      WritePathsOfLog(rest);
      forall i | 0 <= i < |log| && log[i].Wrote?
        ensures log[i].path in PathsOf(Steps(log), WriteKind)
      {
        if i > 0 {
          assert log[i] == rest[i - 1];
        }
      }
      forall p | p in PathsOf(Steps(log), WriteKind)
        ensures exists i :: 0 <= i < |log| && log[i].Wrote? && log[i].path == p
      {
        if !(log[0].Wrote? && log[0].path == p) {
          var k :| 0 <= k < |rest| && rest[k].Wrote? && rest[k].path == p;
          assert log[k + 1] == rest[k];
        }
      }
    }
  }

  /** When no path is written twice, no two writes of the log share a path. */
  lemma {:induction false} WritesDistinct(log: seq<Event>)
    requires NoDuplicates(PathsOf(Steps(log), WriteKind))
    ensures forall i, j :: 0 <= i < j < |log| && log[i].Wrote? && log[j].Wrote? ==> log[i].path != log[j].path
    decreases |log|
  {
    if |log| > 0 {
      var rest := log[1..];
      var head: seq<Path> := if log[0].Wrote? then [log[0].path] else [];
      var paths := PathsOf(Steps(rest), WriteKind);
      WritePathsCons(log);
      assert NoDuplicates(paths) by {
        forall a, b | 0 <= a < b < |paths|
          ensures paths[a] != paths[b]
        {
          assert (head + paths)[|head| + a] == paths[a];
          assert (head + paths)[|head| + b] == paths[b];
        }
      }
      WritesDistinct(rest);
      WritePathsOfLog(rest);
      forall i, j | 0 <= i < j < |log| && log[i].Wrote? && log[j].Wrote?
        ensures log[i].path != log[j].path
      {
        assert log[j] == rest[j - 1];
        if i > 0 {
          assert log[i] == rest[i - 1];
        } else {
          var k :| 0 <= k < |paths| && paths[k] == log[j].path;
          assert (head + paths)[0] == log[0].path;
          assert (head + paths)[1 + k] == paths[k];
        }
      }
    }
  }

  /**
    After a run over a tree with distinct sibling names, every document the
    run wrote is on disk with exactly the text of its write, and every
    directory of the tree has its index document.
   */
  lemma RunDocuments(env: Env, root: Path, children: seq<Node>, docs: map<Path, string>)
    requires WellFormed(children)
    ensures var r := Run(env, root, children, docs);
      forall i :: 0 <= i < |r.log| && r.log[i].Wrote? ==>
        r.log[i].path in r.docs && r.docs[r.log[i].path] == Join(r.log[i].entries, Separator)
    ensures var r := Run(env, root, children, docs);
      forall p :: p in IndexPaths(PostOrder(root, children)) ==> p in r.docs
  {
    var r := Run(env, root, children, docs);
    DirectoryDocs(env, root, children, Fresh(docs));
    assert r.log[|Fresh(docs).log|..] == r.log;
    RunTrace(env, root, children, docs);
    WalkProjections(env, root, children);
    EachDirectoryWrittenOnce(env, root, children, docs);
    WritesDistinct(r.log);
    WritePathsOfLog(r.log);
    forall i | 0 <= i < |r.log| && r.log[i].Wrote?
      ensures r.log[i].path in r.docs && r.docs[r.log[i].path] == Join(r.log[i].entries, Separator)
    {
      ApplyWritesLast(docs, r.log, i);
    }
    forall p | p in IndexPaths(PostOrder(root, children))
      ensures p in r.docs
    {
      var i :| 0 <= i < |r.log| && r.log[i].Wrote? && r.log[i].path == p;
      ApplyWritesLast(docs, r.log, i);
    }
  }

  /**
    A run leaves every path outside the index documents of its tree as it
    found it: present with the same text, or absent.
   */
  lemma RunLeavesOtherDocuments(env: Env, root: Path, children: seq<Node>, docs: map<Path, string>, p: Path)
    requires p !in IndexPaths(PostOrder(root, children))
    ensures var r := Run(env, root, children, docs);
      && (p in r.docs <==> p in docs)
      && (p in docs ==> r.docs[p] == docs[p])
  {
    var r := Run(env, root, children, docs);
    DirectoryDocs(env, root, children, Fresh(docs));
    assert r.log[|Fresh(docs).log|..] == r.log;
    RunTrace(env, root, children, docs);
    WalkProjections(env, root, children);
    WritePathsOfLog(r.log);
    ApplyWritesUntouched(docs, r.log, p);
  }
}

=== FILE: entry_list.dfy ===
/**
  Serialising an entry list into the text of an index document, the way
  JavaScript's `Array.prototype.join` does it: the elements in order with the
  separator between each neighbouring pair, and the empty list giving the empty
  string.
 */
module EntryList {

  /** The blank line placed between consecutive entries of an index document. */
  const Separator: string := "\n\n"

  /** Total number of characters in `entries`. */
  function TotalLength(entries: seq<string>): nat {
    if |entries| == 0 then 0
    else TotalLength(entries[..|entries| - 1]) + |entries[|entries| - 1]|
  }

  function Join(entries: seq<string>, sep: string): (text: string)
    ensures |entries| == 0 ==> text == ""
    ensures |entries| > 0 ==> |text| == TotalLength(entries) + |sep| * (|entries| - 1)
    ensures |entries| > 0 ==> entries[0] <= text
    ensures |entries| > 0 ==> text[|text| - |entries[|entries| - 1]|..] == entries[|entries| - 1]
  {
    if |entries| == 0 then ""
    else if |entries| == 1 then entries[0]
    else
      var init := entries[..|entries| - 1];
      assert init[0] == entries[0];
      Join(init, sep) + sep + entries[|entries| - 1]
  }

  /**
    Extending an entry list only extends its text: the document of a list is a
    prefix of the document of any longer list that starts with it.
   */
  lemma {:induction false} JoinMonotone(shorter: seq<string>, longer: seq<string>, sep: string)
    requires shorter <= longer
    ensures Join(shorter, sep) <= Join(longer, sep)
    decreases |longer|
  {
    if |shorter| < |longer| {
      var init := longer[..|longer| - 1];
      assert shorter <= init;
      JoinMonotone(shorter, init, sep);
      if |longer| > 1 {
        assert Join(longer, sep) == Join(init, sep) + sep + longer[|longer| - 1];
      }
    } else {
      assert shorter == longer;
    }
  }

  /**
    Appending one entry to a non-empty list adds exactly a separator and that
    entry to the end of the text.
   */
  lemma JoinSnoc(entries: seq<string>, entry: string, sep: string)
    requires |entries| > 0
    ensures Join(entries + [entry], sep) == Join(entries, sep) + sep + entry
  {
    assert (entries + [entry])[..|entries|] == entries;
  }

  /**
    A document is empty exactly when its entry list is empty or holds one
    empty entry: any two entries are kept apart by a separator.
   */
  lemma JoinEmpty(entries: seq<string>)
    ensures Join(entries, Separator) == "" <==> entries == [] || entries == [""]
  {
    if |entries| == 1 {
      assert Join(entries, Separator) == entries[0];
    } else if |entries| > 1 {
      assert |Join(entries, Separator)| >= |Separator| * (|entries| - 1);
    }
  }
}

=== FILE: entry_order.dfy ===
/**
  What ends up in the shared entry list and in the documents written from it:
  every entry compared with the reference slots of the walk, the shape one
  child leaves behind, and how the written documents nest inside each other.
 */
module EntryOrder {
  import opened FileTree
  import opened EntryList
  import opened DirectoryProcessor
  import opened TraversalSpec

  lemma MatchesNone(env: Env, entries: seq<string>)
    ensures Matches(env, entries, |entries|, [])
  {
  }

  lemma MatchesOne(env: Env, before: seq<string>, slot: Slot)
    ensures Matches(env, before + [Expected(env, slot, before)], |before|, [slot])
  {
    assert (before + [Expected(env, slot, before)])[..|before|] == before;
  }

  /** Two matching stretches of a growing list make one. */
  lemma MatchesCompose(env: Env, shorter: seq<string>, longer: seq<string>, base: nat, s1: seq<Slot>, s2: seq<Slot>)
    requires Matches(env, shorter, base, s1)
    requires shorter <= longer
    requires Matches(env, longer, |shorter|, s2)
    ensures Matches(env, longer, base, s1 + s2)
  {
    forall i | 0 <= i < |s1 + s2|
      ensures longer[base + i] == Expected(env, (s1 + s2)[i], longer[..base + i])
    {
      if i < |s1| {
        assert longer[..base + i] == shorter[..base + i];
        assert longer[base + i] == shorter[base + i];
        assert (s1 + s2)[i] == s1[i];
      } else {
        var k := i - |s1|;
        assert base + i == |shorter| + k;
        assert (s1 + s2)[i] == s2[k];
      }
    }
  }

  /**
    Processing a directory appends to the shared list exactly the entries the
    reference slots of its subtree prescribe, in order: each subdirectory's
    header, then the entries of its subtree, then the summary of the join of
    everything pushed so far; one processed text per source file.
   */
  lemma {:induction false} DirectoryEntries(env: Env, dir: Path, children: seq<Node>, st: State)
    decreases children, 2
    ensures Matches(env, ProcessDirectory(env, dir, children, st).entries, |st.entries|, Skeleton(env, dir, children))
  {
    EntriesEntries(env, dir, children, st);
  }

  lemma {:induction false} EntriesEntries(env: Env, dir: Path, children: seq<Node>, st: State)
    decreases children, 1
    ensures Matches(env, ProcessEntries(env, dir, children, st).entries, |st.entries|, Skeleton(env, dir, children))
  {
    if |children| == 0 {
      MatchesNone(env, st.entries);
    } else {
      var mid := ProcessChild(env, dir, children[0], st);
      var r := ProcessEntries(env, dir, children[1..], mid);
      assert ProcessEntries(env, dir, children, st) == r;
      ChildEntries(env, dir, children[0], st);
      EntriesEntries(env, dir, children[1..], mid);
      SkeletonCons(env, dir, children);
      MatchesCompose(env, mid.entries, r.entries, |st.entries|, Skeleton(env, dir, [children[0]]), Skeleton(env, dir, children[1..]));
    }
  }

  /** The slots of a listing are those of its first child followed by those of the rest. */
  lemma SkeletonCons(env: Env, dir: Path, children: seq<Node>)
    requires |children| > 0
    ensures Skeleton(env, dir, children) == Skeleton(env, dir, [children[0]]) + Skeleton(env, dir, children[1..])
  {
    assert [children[0]][1..] == [];
  }

  lemma {:induction false} ChildEntries(env: Env, dir: Path, child: Node, st: State)
    decreases child, 0
    ensures Matches(env, ProcessChild(env, dir, child, st).entries, |st.entries|, Skeleton(env, dir, [child]))
  {
    assert [child][1..] == [];
    match child
    case Dir(name, sub) =>
      var fullPath := dir + [name];
      var header := HeaderSlot(name);
      var withHeader := st.(entries := st.entries + [FolderHeader(name)]);
      var visited := ProcessDirectory(env, fullPath, sub, withHeader);
      MatchesOne(env, st.entries, header);
      DirectoryEntries(env, fullPath, sub, withHeader);
      MatchesCompose(env, withHeader.entries, visited.entries, |st.entries|, [header], Skeleton(env, fullPath, sub));
      var summary := SummarySlot(fullPath);
      MatchesOne(env, visited.entries, summary);
      assert ProcessChild(env, dir, child, st).entries == visited.entries + [Expected(env, summary, visited.entries)];
      MatchesCompose(env, visited.entries, visited.entries + [Expected(env, summary, visited.entries)],
        |st.entries|, [header] + Skeleton(env, fullPath, sub), [summary]);
      assert Skeleton(env, dir, [child]) == [header] + Skeleton(env, fullPath, sub) + [summary];
    case File(name, content) =>
      if IsSourceFile(env, name) {
        MatchesOne(env, st.entries, FileSlot(dir + [name], name, content));
      } else {
        MatchesNone(env, st.entries);
      }
  }

  /**
    A subdirectory child leaves behind: its header right after the entries
    that were already there; its index document, written from the whole list
    as it stood after its subtree; and, as the very last entry, the summary of
    exactly that document, read right after it was written.
   */
  lemma SubdirectoryChild(env: Env, dir: Path, name: Name, sub: seq<Node>, st: State)
    ensures var r := ProcessChild(env, dir, Dir(name, sub), st);
      var n, index := |r.entries|, IndexPath(dir + [name]);
      && |st.entries| + 2 <= n
      && r.entries[..|st.entries| + 1] == st.entries + [FolderHeader(name)]
      && index in r.docs && r.docs[index] == Join(r.entries[..n - 1], Separator)
      && r.entries[n - 1] == env.summarize(r.docs[index])
      && |r.log| >= 2
      && r.log[|r.log| - 2] == Wrote(index, r.entries[..n - 1])
      && r.log[|r.log| - 1] == IndexSummarized(index)
  {
    var withHeader := st.(entries := st.entries + [FolderHeader(name)]);
    var visited := ProcessDirectory(env, dir + [name], sub, withHeader);
    var index := IndexPath(dir + [name]);
    SubdirectoryStep(env, dir, name, sub, st);
    SummaryAfterWrite(withHeader.entries, visited, index, env.summarize(visited.docs[index]));
  }

  /** Pushing a summary right after a write keeps that write second to last. */
  lemma SummaryAfterWrite(before: seq<string>, visited: State, index: Path, summary: string)
    requires before <= visited.entries
    requires index in visited.docs && visited.docs[index] == Join(visited.entries, Separator)
    requires |visited.log| > 0 && visited.log[|visited.log| - 1] == Wrote(index, visited.entries)
    ensures var r := visited.(entries := visited.entries + [summary], log := visited.log + [IndexSummarized(index)]);
      var n := |r.entries|;
      && |before| + 1 <= n
      && r.entries[..|before|] == before
      && index in r.docs && r.docs[index] == Join(r.entries[..n - 1], Separator)
      && r.entries[n - 1] == summary
      && |r.log| >= 2
      && r.log[|r.log| - 2] == Wrote(index, r.entries[..n - 1])
      && r.log[|r.log| - 1] == IndexSummarized(index)
  {
    var entries := visited.entries + [summary];
    assert entries[..|entries| - 1] == visited.entries;
    assert entries[..|before|] == visited.entries[..|before|];
  }

  /**
    One subdirectory child is its header, its own walk, and then the summary
    of the document that walk has just written.
   */
  lemma SubdirectoryStep(env: Env, dir: Path, name: Name, sub: seq<Node>, st: State)
    ensures var withHeader := st.(entries := st.entries + [FolderHeader(name)]);
      var visited := ProcessDirectory(env, dir + [name], sub, withHeader);
      var index := IndexPath(dir + [name]);
      && index in visited.docs
      && ProcessChild(env, dir, Dir(name, sub), st)
         == visited.(entries := visited.entries + [env.summarize(visited.docs[index])],
                     log := visited.log + [IndexSummarized(index)])
  {
  }

  /**
    A file child adds nothing and calls nothing exactly when its extension is
    not supported; a supported file adds exactly one entry, the file
    processor's output, at the end of the list.
   */
  lemma FileChild(env: Env, dir: Path, name: Name, content: string, st: State)
    ensures var r := ProcessChild(env, dir, File(name, content), st);
      && (r == st <==> !IsSourceFile(env, name))
      && (IsSourceFile(env, name) ==>
            && r.entries == st.entries + [env.processFile(dir + [name], name, content)]
            && r.log == st.log + [FileProcessed(dir + [name])]
            && r.docs == st.docs)
  {
    var r := ProcessChild(env, dir, File(name, content), st);
    if IsSourceFile(env, name) {
      assert |r.log| == |st.log| + 1;
    }
  }

  /**
    Whether a file is handled depends on its name only through its
    extension: two files with the same extension are both skipped or both
    processed, whatever their names and contents.
   */
  lemma SameExtensionSameTreatment(env: Env, dir: Path, a: Name, ca: string, b: Name, cb: string, st: State)
    requires env.extname(a) == env.extname(b)
    ensures (ProcessChild(env, dir, File(a, ca), st) == st) <==> (ProcessChild(env, dir, File(b, cb), st) == st)
  {
    FileChild(env, dir, a, ca, st);
    FileChild(env, dir, b, cb, st);
  }

  /** Every document in the log is a prefix of every later one and of the current list. */
  predicate DocumentsNested(st: State) {
    && (forall i :: 0 <= i < |st.log| && st.log[i].Wrote? ==> st.log[i].entries <= st.entries)
    && (forall i, j :: 0 <= i < j < |st.log| && st.log[i].Wrote? && st.log[j].Wrote? ==>
          st.log[i].entries <= st.log[j].entries)
  }

  lemma PrefixTransitive(a: seq<string>, b: seq<string>, c: seq<string>)
    requires a <= b && b <= c
    ensures a <= c
  {
    assert c[..|a|] == c[..|b|][..|a|];
  }

  lemma NestedGrow(st: State, r: State)
    requires DocumentsNested(st)
    requires st.entries <= r.entries && r.log == st.log
    ensures DocumentsNested(r)
  {
    forall i | 0 <= i < |r.log| && r.log[i].Wrote?
      ensures r.log[i].entries <= r.entries
    {
      PrefixTransitive(r.log[i].entries, st.entries, r.entries);
    }
  }

  lemma NestedLog(st: State, r: State, e: Event)
    requires DocumentsNested(st)
    requires st.entries <= r.entries && r.log == st.log + [e]
    requires e.Wrote? ==> e.entries == r.entries
    ensures DocumentsNested(r)
  {
    forall i | 0 <= i < |r.log| && r.log[i].Wrote?
      ensures r.log[i].entries <= r.entries
    {
      if i < |st.log| {
        assert r.log[i] == st.log[i];
        PrefixTransitive(r.log[i].entries, st.entries, r.entries);
      }
    }
    forall i, j | 0 <= i < j < |r.log| && r.log[i].Wrote? && r.log[j].Wrote?
      ensures r.log[i].entries <= r.log[j].entries
    {
      assert r.log[i] == st.log[i];
      if j < |st.log| {
        assert r.log[j] == st.log[j];
      } else {
        PrefixTransitive(r.log[i].entries, st.entries, r.entries);
      }
    }
  }

  /** The entry list only grows, so documents written later extend those written earlier. */
  lemma {:induction false} DirectoryNested(env: Env, dir: Path, children: seq<Node>, st: State)
    requires DocumentsNested(st)
    decreases children, 2
    ensures DocumentsNested(ProcessDirectory(env, dir, children, st))
  {
    var handled := ProcessEntries(env, dir, children, st);
    EntriesNested(env, dir, children, st);
    NestedLog(handled, ProcessDirectory(env, dir, children, st), Wrote(IndexPath(dir), handled.entries));
  }

  lemma {:induction false} EntriesNested(env: Env, dir: Path, children: seq<Node>, st: State)
    requires DocumentsNested(st)
    decreases children, 1
    ensures DocumentsNested(ProcessEntries(env, dir, children, st))
  {
    if |children| > 0 {
      ChildNested(env, dir, children[0], st);
      EntriesNested(env, dir, children[1..], ProcessChild(env, dir, children[0], st));
    }
  }

  lemma {:induction false} ChildNested(env: Env, dir: Path, child: Node, st: State)
    requires DocumentsNested(st)
    decreases child, 0
    ensures DocumentsNested(ProcessChild(env, dir, child, st))
  {
    var r := ProcessChild(env, dir, child, st);
    match child
    case Dir(name, sub) =>
      var fullPath := dir + [name];
      var withHeader := st.(entries := st.entries + [FolderHeader(name)]);
      var visited := ProcessDirectory(env, fullPath, sub, withHeader);
      NestedGrow(st, withHeader);
      DirectoryNested(env, fullPath, sub, withHeader);
      NestedLog(visited, r, IndexSummarized(IndexPath(fullPath)));
    case File(name, content) =>
      if IsSourceFile(env, name) {
        NestedLog(st, r, FileProcessed(dir + [name]));
      }
  }

  /**
    In a run, a document written earlier is, as an entry list and as text, a
    prefix of every document written later; the root's document, written
    last, holds every entry the run pushed.
   */
  lemma EarlierDocumentsArePrefixes(env: Env, root: Path, children: seq<Node>, docs: map<Path, string>, i: nat, j: nat)
    requires var log := Run(env, root, children, docs).log;
      i < j < |log| && log[i].Wrote? && log[j].Wrote?
    ensures var r := Run(env, root, children, docs);
      && r.log[i].entries <= r.log[j].entries
      && Join(r.log[i].entries, Separator) <= Join(r.log[j].entries, Separator)
      && Join(r.log[i].entries, Separator) <= r.docs[IndexPath(root)]
  {
    var r := Run(env, root, children, docs);
    DirectoryNested(env, root, children, Fresh(docs));
    JoinMonotone(r.log[i].entries, r.log[j].entries, Separator);
    JoinMonotone(r.log[i].entries, r.entries, Separator);
  }

  /**
    A run's entries, from a fresh processor, are exactly the reference slots
    of the whole tree filled in order.
   */
  lemma RunEntries(env: Env, root: Path, children: seq<Node>, docs: map<Path, string>)
    ensures Matches(env, Run(env, root, children, docs).entries, 0, Skeleton(env, root, children))
  {
    DirectoryEntries(env, root, children, Fresh(docs));
  }

  /**
    The existence check never reads a stale document: the walk writes a
    subdirectory's document before it checks for it, so, for a given
    listing, the entries and every effect are the same whatever documents
    were on disk before. A document from an earlier run that reaches the
    walk does so only as a file in the listing; `Rerun` treats that case.
   */
  lemma {:induction false} DirectoryIgnoresPriorDocuments(env: Env, dir: Path, children: seq<Node>, st1: State, st2: State)
    requires st1.entries == st2.entries && st1.log == st2.log
    decreases children, 2
    ensures ProcessDirectory(env, dir, children, st1).entries == ProcessDirectory(env, dir, children, st2).entries
    ensures ProcessDirectory(env, dir, children, st1).log == ProcessDirectory(env, dir, children, st2).log
  {
    EntriesIgnorePriorDocuments(env, dir, children, st1, st2);
  }

  lemma {:induction false} EntriesIgnorePriorDocuments(env: Env, dir: Path, children: seq<Node>, st1: State, st2: State)
    requires st1.entries == st2.entries && st1.log == st2.log
    decreases children, 1
    ensures ProcessEntries(env, dir, children, st1).entries == ProcessEntries(env, dir, children, st2).entries
    ensures ProcessEntries(env, dir, children, st1).log == ProcessEntries(env, dir, children, st2).log
  {
    if |children| > 0 {
      ChildIgnoresPriorDocuments(env, dir, children[0], st1, st2);
      EntriesIgnorePriorDocuments(env, dir, children[1..],
        ProcessChild(env, dir, children[0], st1), ProcessChild(env, dir, children[0], st2));
    }
  }

  lemma {:induction false} ChildIgnoresPriorDocuments(env: Env, dir: Path, child: Node, st1: State, st2: State)
    requires st1.entries == st2.entries && st1.log == st2.log
    decreases child, 0
    ensures ProcessChild(env, dir, child, st1).entries == ProcessChild(env, dir, child, st2).entries
    ensures ProcessChild(env, dir, child, st1).log == ProcessChild(env, dir, child, st2).log
  {
    match child
    case Dir(name, sub) =>
      DirectoryIgnoresPriorDocuments(env, dir + [name], sub,
        st1.(entries := st1.entries + [FolderHeader(name)]),
        st2.(entries := st2.entries + [FolderHeader(name)]));
    case File(_, _) =>
  }

  /** An empty root directory, indexed by a fresh processor, gets an empty document, still written. */
  lemma EmptyRootDirectory(env: Env, root: Path, docs: map<Path, string>)
    ensures var r := Run(env, root, [], docs);
      && r.entries == []
      && r.log == [Wrote(IndexPath(root), [])]
      && r.docs[IndexPath(root)] == ""
  {
  }

  /**
    An empty subdirectory still gets a document, written from the shared list:
    everything pushed before it plus its own header, so it is never empty, and
    its summary is always pushed.
   */
  lemma EmptySubdirectory(env: Env, dir: Path, name: Name, st: State)
    ensures var r := ProcessChild(env, dir, Dir(name, []), st);
      var index := IndexPath(dir + [name]);
      && r.docs == st.docs[index := Join(st.entries + [FolderHeader(name)], Separator)]
      && r.docs[index] != ""
      && r.entries == st.entries + [FolderHeader(name), env.summarize(r.docs[index])]
      && r.log == st.log + [Wrote(index, st.entries + [FolderHeader(name)]), IndexSummarized(index)]
  {
    var fullPath, entries := dir + [name], st.entries + [FolderHeader(name)];
    var index := IndexPath(fullPath);
    var withHeader := st.(entries := entries);
    var text := Join(entries, Separator);
    var visited := ProcessDirectory(env, fullPath, [], withHeader);
    EmptyDirectoryWrite(env, fullPath, withHeader);
    SubdirectoryStep(env, dir, name, [], st);
    assert |text| > 0 by {
      JoinLast(entries);
    }
  }

  /** Processing an empty directory is only its write. */
  lemma EmptyDirectoryWrite(env: Env, dirPath: Path, st: State)
    ensures var r := ProcessDirectory(env, dirPath, [], st);
      && r.docs == st.docs[IndexPath(dirPath) := Join(st.entries, Separator)]
      && r.entries == st.entries
      && r.log == st.log + [Wrote(IndexPath(dirPath), st.entries)]
  {
    assert ProcessEntries(env, dirPath, [], st) == st;
  }

  /** A list whose last entry is non-empty has a non-empty join. */
  lemma JoinLast(entries: seq<string>)
    requires |entries| > 0 && entries[|entries| - 1] != ""
    ensures Join(entries, Separator) != ""
  {
    JoinEmpty(entries);
  }
}

=== FILE: file_tree.dfy ===
/**
  The directory tree a traversal sees: every directory is its name plus its
  children in the order the filesystem listing returns them, every file is its
  name plus its text. Paths are sequences of names, so joining a path with a
  child name is sequence concatenation.
 */
module FileTree {

  type Name = string

  /** A path from the traversal's root: the names of the directories walked through. */
  type Path = seq<Name>

  datatype Node =
    | File(name: Name, content: string)
    | Dir(name: Name, children: seq<Node>)

  /** No two children of one directory carry the same name, as in any real filesystem. */
  predicate SiblingsDistinct(children: seq<Node>) {
    forall i, j :: 0 <= i < j < |children| ==> children[i].name != children[j].name
  }

  /** Sibling names are distinct at every level of the tree. */
  predicate WellFormed(children: seq<Node>)
    decreases children
  {
    && SiblingsDistinct(children)
    && forall i :: 0 <= i < |children| ==> children[i].Dir? ==> WellFormed(children[i].children)
  }

  predicate NoDuplicates<T(==)>(s: seq<T>) {
    forall i, j :: 0 <= i < j < |s| ==> s[i] != s[j]
  }

  /** The names of the subdirectories among `children`. */
  function DirNames(children: seq<Node>): (names: set<Name>)
    ensures forall n :: n in names ==> exists i :: 0 <= i < |children| && children[i].Dir? && children[i].name == n
  {
    if |children| == 0 then {}
    else
      var rest := DirNames(children[1..]);
      assert forall n :: n in rest ==> exists i :: 1 <= i < |children| && children[i].Dir? && children[i].name == n by {
        forall n | n in rest
          ensures exists i :: 1 <= i < |children| && children[i].Dir? && children[i].name == n
        {
          var k :| 0 <= k < |children[1..]| && children[1..][k].Dir? && children[1..][k].name == n;
          assert children[k + 1] == children[1..][k];
        }
      }
      (if children[0].Dir? then {children[0].name} else {}) + rest
  }

  /**
    Every directory of the tree rooted at `dir`, each listed after all the
    directories below it (post-order), siblings in listing order; `dir` itself
    comes last.
   */
  function PostOrder(dir: Path, children: seq<Node>): (dirs: seq<Path>)
    decreases children, 1
  {
    Descendants(dir, children) + [dir]
  }

  /** The directories strictly below `dir`, in post-order. */
  function Descendants(dir: Path, children: seq<Node>): (dirs: seq<Path>)
    decreases children, 0
  {
    if |children| == 0 then []
    else
      var first := match children[0]
        case Dir(name, sub) => PostOrder(dir + [name], sub)
        case File(_, _) => [];
      first + Descendants(dir, children[1..])
  }

  /** Every directory the post-order lists lies at or below `dir`. */
  lemma {:induction false} PostOrderUnder(dir: Path, children: seq<Node>)
    decreases children, 1
    ensures forall p :: p in PostOrder(dir, children) ==> |dir| <= |p| && p[..|dir|] == dir
  {
    DescendantsUnder(dir, children);
  }

  /** Every directory strictly below `dir` lies under one of its subdirectories. */
  lemma {:induction false} DescendantsUnder(dir: Path, children: seq<Node>)
    decreases children, 0
    ensures forall p :: p in Descendants(dir, children) ==>
      |dir| < |p| && p[..|dir|] == dir && p[|dir|] in DirNames(children)
  {
    if |children| > 0 {
      DescendantsUnder(dir, children[1..]);
      match children[0]
      case Dir(name, sub) =>
        var d := dir + [name];
        PostOrderUnder(d, sub);
        forall p | p in PostOrder(d, sub)
          ensures |dir| < |p| && p[..|dir|] == dir && p[|dir|] in DirNames(children)
        {
          assert p[..|d|] == d;
          assert p[..|dir|] == d[..|dir|];
          assert p[|dir|] == d[|dir|];
        }
      case File(_, _) =>
    }
  }

  lemma NoDuplicatesConcat<T>(a: seq<T>, b: seq<T>)
    requires NoDuplicates(a) && NoDuplicates(b)
    requires forall x :: x in a ==> x !in b
    ensures NoDuplicates(a + b)
  {
    forall i, j | 0 <= i < j < |a + b|
      ensures (a + b)[i] != (a + b)[j]
    {
      if j < |a| {
        assert (a + b)[i] == a[i] && (a + b)[j] == a[j];
      } else if i >= |a| {
        assert (a + b)[i] == b[i - |a|] && (a + b)[j] == b[j - |a|];
      } else {
        assert (a + b)[i] == a[i] && a[i] in a;
        assert (a + b)[j] == b[j - |a|] && b[j - |a|] in b;
      }
    }
  }

  lemma WellFormedTail(children: seq<Node>)
    requires |children| > 0 && WellFormed(children)
    ensures WellFormed(children[1..])
    ensures children[0].name !in DirNames(children[1..])
  {
    var rest := children[1..];
    forall i, j | 0 <= i < j < |rest|
      ensures rest[i].name != rest[j].name
    {
      assert rest[i] == children[i + 1] && rest[j] == children[j + 1];
    }
    forall i | 0 <= i < |rest| && rest[i].Dir?
      ensures WellFormed(rest[i].children)
    {
      assert rest[i] == children[i + 1];
    }
  }

  /**
    In a tree with distinct sibling names, the post-order lists every directory
    exactly once.
   */
  lemma {:induction false} PostOrderDistinct(dir: Path, children: seq<Node>)
    requires WellFormed(children)
    decreases children, 1
    ensures NoDuplicates(PostOrder(dir, children))
  {
    DescendantsDistinct(dir, children);
    DescendantsUnder(dir, children);
    NoDuplicatesConcat(Descendants(dir, children), [dir]);
  }

  lemma {:induction false} DescendantsDistinct(dir: Path, children: seq<Node>)
    requires WellFormed(children)
    decreases children, 0
    ensures NoDuplicates(Descendants(dir, children))
  {
    if |children| > 0 {
      WellFormedTail(children);
      DescendantsDistinct(dir, children[1..]);
      var rest := Descendants(dir, children[1..]);
      match children[0]
      case Dir(name, sub) =>
        assert WellFormed(children[0].children);
        PostOrderDistinct(dir + [name], sub);
        PostOrderUnder(dir + [name], sub);
        DescendantsUnder(dir, children[1..]);
        var first := PostOrder(dir + [name], sub);
        forall p | p in first
          ensures p !in rest
        {
          var d := dir + [name];
          assert p[..|d|] == d;
          assert p[|dir|] == d[|dir|] == name;
        }
        NoDuplicatesConcat(first, rest);
      case File(_, _) =>
        assert Descendants(dir, children) == rest;
    }
  }
}

=== FILE: rerun.dfy ===
/**
  Running the processor again over the tree a run leaves behind. After a run,
  every visited directory lists its own `.Index.md` among its files, so a
  second walk meets those documents as file children. Whether they matter
  depends only on whether the extension of `.Index.md` is a supported one:
  when it is not, index files in a listing are skipped wherever they stand,
  and a second run leaves the disk, the entries and the effects exactly as
  the first run did.
 */
module Rerun {
  import opened FileTree
  import opened DirectoryProcessor
  import opened EntryOrder
  import opened DiskState

  predicate IsIndexFile(node: Node) {
    node.File? && node.name == IndexFileName
  }

  /** The listing with every index file removed, at every level of the tree. */
  function StripIndexes(children: seq<Node>): seq<Node>
    decreases children
  {
    if |children| == 0 then []
    else
      var rest := StripIndexes(children[1..]);
      match children[0]
      case File(name, _) => if name == IndexFileName then rest else [children[0]] + rest
      case Dir(name, sub) => [Dir(name, StripIndexes(sub))] + rest
  }

  /**
    When the extension of `.Index.md` is not supported, processing a
    directory gives exactly the same state whether or not its listings hold
    index files, wherever they stand and whatever their text.
   */
  lemma {:induction false} DirectoryStrip(env: Env, dir: Path, children: seq<Node>, st: State)
    requires !IsSourceFile(env, IndexFileName)
    decreases children, 2
    ensures ProcessDirectory(env, dir, children, st) == ProcessDirectory(env, dir, StripIndexes(children), st)
  {
    EntriesStrip(env, dir, children, st);
  }

  lemma {:induction false} EntriesStrip(env: Env, dir: Path, children: seq<Node>, st: State)
    requires !IsSourceFile(env, IndexFileName)
    decreases children, 1
    ensures ProcessEntries(env, dir, children, st) == ProcessEntries(env, dir, StripIndexes(children), st)
  {
    if |children| > 0 {
      var first, rest := children[0], children[1..];
      var mid := ProcessChild(env, dir, first, st);
      EntriesStrip(env, dir, rest, mid);
      if IsIndexFile(first) {
        assert mid == st;
        assert StripIndexes(children) == StripIndexes(rest);
      } else {
        var stripped := StripIndexes(children);
        var kept := if first.Dir? then Dir(first.name, StripIndexes(first.children)) else first;
        assert stripped == [kept] + StripIndexes(rest);
        assert stripped[0] == kept && stripped[1..] == StripIndexes(rest);
        ChildStrip(env, dir, first, st);
      }
    }
  }

  lemma {:induction false} ChildStrip(env: Env, dir: Path, child: Node, st: State)
    requires !IsSourceFile(env, IndexFileName)
    decreases child, 0
    ensures child.Dir? ==>
      ProcessChild(env, dir, child, st) == ProcessChild(env, dir, Dir(child.name, StripIndexes(child.children)), st)
  {
    match child
    case Dir(name, sub) =>
      DirectoryStrip(env, dir + [name], sub, st.(entries := st.entries + [FolderHeader(name)]));
    case File(_, _) =>
  }

  /**
    A second run whose listing differs from the first only in index files,
    started on the disk the first run left, reproduces the first run exactly:
    the same entries, the same effects, and the disk unchanged.
   */
  lemma RerunWritesSameDocuments(env: Env, root: Path, listing: seq<Node>, relisting: seq<Node>, docs: map<Path, string>)
    requires !IsSourceFile(env, IndexFileName)
    requires StripIndexes(relisting) == StripIndexes(listing)
    ensures var first := Run(env, root, listing, docs);
      Run(env, root, relisting, first.docs) == first
  {
    var first := Run(env, root, listing, docs);
    var second := Run(env, root, relisting, first.docs);
    var tree := StripIndexes(listing);
    DirectoryStrip(env, root, listing, Fresh(docs));
    DirectoryStrip(env, root, relisting, Fresh(first.docs));
    DirectoryIgnoresPriorDocuments(env, root, tree, Fresh(docs), Fresh(first.docs));
    DirectoryDocs(env, root, tree, Fresh(docs));
    DirectoryDocs(env, root, tree, Fresh(first.docs));
    assert first.log[|Fresh(docs).log|..] == first.log;
    ApplyWritesIdempotent(docs, first.log);
  }

  /**
    The listing the walk leaves behind: in every directory whose index
    document is on disk, that document is listed, with its text, after the
    other entries; stale index files are gone. The position is immaterial to
    the results below.
   */
  function Relisted(dir: Path, children: seq<Node>, docs: map<Path, string>): seq<Node>
    decreases children, 1
  {
    Relist(dir, children, docs)
      + (if IndexPath(dir) in docs then [File(IndexFileName, docs[IndexPath(dir)])] else [])
  }

  function Relist(dir: Path, children: seq<Node>, docs: map<Path, string>): seq<Node>
    decreases children, 0
  {
    if |children| == 0 then []
    else
      var rest := Relist(dir, children[1..], docs);
      match children[0]
      case File(name, _) => if name == IndexFileName then rest else [children[0]] + rest
      case Dir(name, sub) => [Dir(name, Relisted(dir + [name], sub, docs))] + rest
  }

  /** The index files a listing holds directly, in order. */
  function IndexFiles(children: seq<Node>): (files: seq<Node>)
    ensures forall i :: 0 <= i < |files| ==> IsIndexFile(files[i])
  {
    if |children| == 0 then []
    else (if IsIndexFile(children[0]) then [children[0]] else []) + IndexFiles(children[1..])
  }

  /**
    Every directory of the tree under `dir` lists its index document, with
    the text on disk, exactly when one is on disk, and no other index file.
   */
  predicate ListsDisk(dir: Path, children: seq<Node>, docs: map<Path, string>)
    decreases children, 1
  {
    && IndexFiles(children) == (if IndexPath(dir) in docs then [File(IndexFileName, docs[IndexPath(dir)])] else [])
    && SubdirectoriesListDisk(dir, children, docs)
  }

  predicate SubdirectoriesListDisk(dir: Path, children: seq<Node>, docs: map<Path, string>)
    decreases children, 0
  {
    |children| == 0 ||
      ((children[0].Dir? ==> ListsDisk(dir + [children[0].name], children[0].children, docs))
       && SubdirectoriesListDisk(dir, children[1..], docs))
  }

  lemma {:induction false} IndexFilesConcat(a: seq<Node>, b: seq<Node>)
    ensures IndexFiles(a + b) == IndexFiles(a) + IndexFiles(b)
    decreases |a|
  {
    if |a| > 0 {
      assert (a + b)[0] == a[0];
      assert (a + b)[1..] == a[1..] + b;
      IndexFilesConcat(a[1..], b);
    } else {
      assert a + b == b;
    }
  }

  lemma {:induction false} SubdirectoriesListDiskConcat(dir: Path, a: seq<Node>, b: seq<Node>, docs: map<Path, string>)
    requires SubdirectoriesListDisk(dir, a, docs) && SubdirectoriesListDisk(dir, b, docs)
    ensures SubdirectoriesListDisk(dir, a + b, docs)
    decreases |a|
  {
    if |a| > 0 {
      assert (a + b)[0] == a[0];
      assert (a + b)[1..] == a[1..] + b;
      SubdirectoriesListDiskConcat(dir, a[1..], b, docs);
    } else {
      assert a + b == b;
    }
  }

  /**
    The relisted tree agrees with the disk, and differs from the original
    listing only in index files.
   */
  lemma {:induction false} RelistedAgrees(dir: Path, children: seq<Node>, docs: map<Path, string>)
    decreases children, 1
    ensures ListsDisk(dir, Relisted(dir, children, docs), docs)
    ensures StripIndexes(Relisted(dir, children, docs)) == StripIndexes(children)
  {
    var body := Relist(dir, children, docs);
    var tail: seq<Node> := if IndexPath(dir) in docs then [File(IndexFileName, docs[IndexPath(dir)])] else [];
    RelistAgrees(dir, children, docs);
    IndexFilesConcat(body, tail);
    assert IndexFiles(tail) == tail by {
      if |tail| > 0 {
        assert tail[1..] == [];
      }
    }
    assert SubdirectoriesListDisk(dir, tail, docs) by {
      if |tail| > 0 {
        assert tail[1..] == [];
      }
    }
    SubdirectoriesListDiskConcat(dir, body, tail, docs);
    StripIndexFilesSuffix(body, tail);
  }

  lemma {:induction false} RelistAgrees(dir: Path, children: seq<Node>, docs: map<Path, string>)
    decreases children, 0
    ensures IndexFiles(Relist(dir, children, docs)) == []
    ensures SubdirectoriesListDisk(dir, Relist(dir, children, docs), docs)
    ensures StripIndexes(Relist(dir, children, docs)) == StripIndexes(children)
  {
    if |children| > 0 {
      var rest := Relist(dir, children[1..], docs);
      RelistAgrees(dir, children[1..], docs);
      match children[0]
      case File(name, _) =>
        if name != IndexFileName {
          var r := [children[0]] + rest;
          assert r[0] == children[0] && r[1..] == rest;
        }
      case Dir(name, sub) =>
        var node := Dir(name, Relisted(dir + [name], sub, docs));
        var r := [node] + rest;
        assert r[0] == node && r[1..] == rest;
        RelistedAgrees(dir + [name], sub, docs);
    }
  }

  /** Index files appended to a listing vanish when it is stripped. */
  lemma StripIndexFilesSuffix(body: seq<Node>, tail: seq<Node>)
    requires forall i :: 0 <= i < |tail| ==> IsIndexFile(tail[i])
    ensures StripIndexes(body + tail) == StripIndexes(body)
    decreases |body|
  {
    if |body| > 0 {
      assert (body + tail)[0] == body[0];
      assert (body + tail)[1..] == body[1..] + tail;
      StripIndexFilesSuffix(body[1..], tail);
    } else {
      assert body + tail == tail;
      StripIndexFilesOnly(tail);
    }
  }

  lemma {:induction false} StripIndexFilesOnly(tail: seq<Node>)
    requires forall i :: 0 <= i < |tail| ==> IsIndexFile(tail[i])
    ensures StripIndexes(tail) == []
    decreases |tail|
  {
    if |tail| > 0 {
      assert IsIndexFile(tail[0]);
      forall i | 0 <= i < |tail[1..]|
        ensures IsIndexFile(tail[1..][i])
      {
        assert tail[1..][i] == tail[i + 1];
      }
      StripIndexFilesOnly(tail[1..]);
    }
  }

  /**
    Running again over the tree the first run leaves behind, on the disk it
    leaves behind, changes nothing, provided the extension of `.Index.md` is
    not a supported one.
   */
  lemma RerunOnLeftTree(env: Env, root: Path, listing: seq<Node>, docs: map<Path, string>)
    requires !IsSourceFile(env, IndexFileName)
    ensures var first := Run(env, root, listing, docs);
      && ListsDisk(root, Relisted(root, listing, first.docs), first.docs)
      && Run(env, root, Relisted(root, listing, first.docs), first.docs) == first
  {
    var first := Run(env, root, listing, docs);
    RelistedAgrees(root, listing, first.docs);
    RerunWritesSameDocuments(env, root, listing, Relisted(root, listing, first.docs), docs);
  }
}

=== FILE: scenarios.dfy ===
/**
  A small concrete walk, worked out entry by entry, that shows the
  consequences of the one shared entry list.
 */
module Scenarios {
  import opened FileTree
  import opened EntryList
  import opened DirectoryProcessor
  import opened EntryOrder
  import opened Rerun

  /**
    Collaborators that keep the entries readable: every name but `notes.txt`
    has the supported extension `.ts`, a file's entry is its name, and a
    digest is marked as such.
   */
  function ExampleEnv(): Env {
    Env(
      name => if name == "notes.txt" then ".txt" else ".ts",
      [".ts"],
      (path, name, content) => name,
      text => "digest: " + text)
  }

  function ExampleListing(a: string, b: string, c: string): seq<Node> {
    [File("f1.ts", a), Dir("d1", []), File("f2.ts", b), File("notes.txt", c)]
  }

  /** What the walk writes as d1's document: f1's entry and d1's header. */
  function D1Document(): string {
    "f1.ts" + Separator + FolderHeader("d1")
  }

  function D1Index(root: Path): Path {
    root + ["d1", ".Index.md"]
  }

  /** The processor's state after f1.ts. */
  function AfterF1(root: Path): State {
    State(["f1.ts"], map[], [FileProcessed(root + ["f1.ts"])])
  }

  /** The processor's state after d1: its header, its document, its digest. */
  function AfterD1(root: Path): State {
    State(["f1.ts", FolderHeader("d1"), "digest: " + D1Document()], map[D1Index(root) := D1Document()],
      AfterF1(root).log + [Wrote(D1Index(root), ["f1.ts", FolderHeader("d1")]), IndexSummarized(D1Index(root))])
  }

  /** The processor's state after f2.ts, and after notes.txt, which changes nothing. */
  function AfterF2(root: Path): State {
    var s := AfterD1(root);
    s.(entries := s.entries + ["f2.ts"], log := s.log + [FileProcessed(root + ["f2.ts"])])
  }

  /**
    The listing [f1.ts, d1/, f2.ts, notes.txt] with d1 empty: d1's header
    follows f1's entry; d1's document holds f1's entry and d1's header; d1's
    digest comes before f2's entry; notes.txt leaves no trace; the root is
    written last.
   */
  lemma ListingWithEmptySubdirectory(root: Path, a: string, b: string, c: string)
    ensures var r := Run(ExampleEnv(), root, ExampleListing(a, b, c), map[]);
      var d1Doc := "f1.ts" + Separator + FolderHeader("d1");
      && r.entries == ["f1.ts", FolderHeader("d1"), "digest: " + d1Doc, "f2.ts"]
      && r.log == [
           FileProcessed(root + ["f1.ts"]),
           Wrote(root + ["d1", ".Index.md"], ["f1.ts", FolderHeader("d1")]),
           IndexSummarized(root + ["d1", ".Index.md"]),
           FileProcessed(root + ["f2.ts"]),
           Wrote(root + [".Index.md"], r.entries)]
      && root + ["d1", ".Index.md"] in r.docs
      && r.docs[root + ["d1", ".Index.md"]] == d1Doc
  {
    var env := ExampleEnv();
    var s := AfterF2(root);
    var r := Run(env, root, ExampleListing(a, b, c), map[]);
    ExampleLoop(root, a, b, c);
    assert r == WriteIndexFileAt(s, root);
    assert D1Index(root) != IndexPath(root);
  }

  /** The loop over the example listing, child by child. */
  lemma ExampleLoop(root: Path, a: string, b: string, c: string)
    ensures ProcessEntries(ExampleEnv(), root, ExampleListing(a, b, c), Fresh(map[])) == AfterF2(root)
  {
    var env := ExampleEnv();
    var s0, s1, s2, s3 := Fresh(map[]), AfterF1(root), AfterD1(root), AfterF2(root);
    var l3 := [File("notes.txt", c)];
    var l2 := [File("f2.ts", b)] + l3;
    var l1 := [Dir("d1", [])] + l2;
    var l0 := [File("f1.ts", a)] + l1;
    assert l0 == ExampleListing(a, b, c);
    assert l3[0] == File("notes.txt", c) && l3[1..] == [];
    assert l2[0] == File("f2.ts", b) && l2[1..] == l3;
    assert l1[0] == Dir("d1", []) && l1[1..] == l2;
    assert l0[0] == File("f1.ts", a) && l0[1..] == l1;
    ExampleChildren(root, a, b, c);
    LoopStep(env, root, l3, s3, s3, s3);
    LoopStep(env, root, l2, s2, s3, s3);
    LoopStep(env, root, l1, s1, s2, s3);
    LoopStep(env, root, l0, s0, s1, s3);
  }

  /** One turn of the loop: the first child, then the rest of the listing. */
  lemma LoopStep(env: Env, dir: Path, children: seq<Node>, st: State, mid: State, r: State)
    requires |children| > 0
    requires ProcessChild(env, dir, children[0], st) == mid
    requires ProcessEntries(env, dir, children[1..], mid) == r
    ensures ProcessEntries(env, dir, children, st) == r
  {
  }

  /** Each child of the example listing, applied to the state the ones before it left. */
  lemma ExampleChildren(root: Path, a: string, b: string, c: string)
    ensures var env := ExampleEnv();
      && ProcessChild(env, root, File("f1.ts", a), Fresh(map[])) == AfterF1(root)
      && ProcessChild(env, root, Dir("d1", []), AfterF1(root)) == AfterD1(root)
      && ProcessChild(env, root, File("f2.ts", b), AfterD1(root)) == AfterF2(root)
      && ProcessChild(env, root, File("notes.txt", c), AfterF2(root)) == AfterF2(root)
  {
    var env := ExampleEnv();
    assert ProcessChild(env, root, File("f1.ts", a), Fresh(map[])) == AfterF1(root) by {
      FileChild(env, root, "f1.ts", a, Fresh(map[]));
    }
    assert ProcessChild(env, root, Dir("d1", []), AfterF1(root)) == AfterD1(root) by {
      EmptySubdirectoryStep(root);
    }
    assert ProcessChild(env, root, File("f2.ts", b), AfterD1(root)) == AfterF2(root) by {
      FileChild(env, root, "f2.ts", b, AfterD1(root));
    }
    assert ProcessChild(env, root, File("notes.txt", c), AfterF2(root)) == AfterF2(root) by {
      FileChild(env, root, "notes.txt", c, AfterF2(root));
    }
  }

  /** The empty subdirectory d1, met after f1.ts has been processed. */
  lemma EmptySubdirectoryStep(root: Path)
    ensures ProcessChild(ExampleEnv(), root, Dir("d1", []), AfterF1(root)) == AfterD1(root)
  {
    var env := ExampleEnv();
    var s1 := AfterF1(root);
    D1Facts(root);
    EmptySubdirectory(env, root, "d1", s1);
    var r := ProcessChild(env, root, Dir("d1", []), s1);
    assert r == State(r.entries, r.docs, r.log);
  }

  /** d1's index path, its list at the write, and the document written from it. */
  lemma D1Facts(root: Path)
    ensures IndexPath(root + ["d1"]) == D1Index(root)
    ensures AfterF1(root).entries + [FolderHeader("d1")] == ["f1.ts", FolderHeader("d1")]
    ensures Join(["f1.ts", FolderHeader("d1")], Separator) == D1Document()
    ensures AfterF1(root).docs[D1Index(root) := D1Document()] == map[D1Index(root) := D1Document()]
  {
    JoinSnoc(["f1.ts"], FolderHeader("d1"), Separator);
  }

  /**
    Collaborators under which `.Index.md` counts as a source file: Node's
    `path.extname` gives `.md` for both `a.md` and `.Index.md`, `.md` is
    supported, and the file processor returns the file's text.
   */
  function MarkdownEnv(): Env {
    Env(name => ".md", [".md"], (path, name, content) => content, text => text)
  }

  /** The disk after the first run over `[a.md]`: the root's document is `x`. */
  function MarkdownDocs(root: Path, x: string): map<Path, string> {
    map[IndexPath(root) := x]
  }

  /**
    When `.md` is a supported extension, a second run over the tree the
    first run leaves behind hands the old `.Index.md` to the file processor:
    the root's document `x` becomes `x`, a blank line, and `x` again.
   */
  lemma StaleIndexReprocessed(root: Path, x: string)
    ensures var env := MarkdownEnv();
      var first := Run(env, root, [File("a.md", x)], map[]);
      var second := Run(env, root, Relisted(root, [File("a.md", x)], first.docs), first.docs);
      && IsSourceFile(env, IndexFileName)
      && first.entries == [x]
      && first.docs[IndexPath(root)] == x
      && second.entries == [x, x]
      && second.docs[IndexPath(root)] == x + Separator + x
  {
    var env := MarkdownEnv();
    var first := Run(env, root, [File("a.md", x)], map[]);
    MarkdownFirstRun(root, x);
    MarkdownRelisted(root, x);
    MarkdownSecondRun(root, x);
  }

  lemma MarkdownFirstRun(root: Path, x: string)
    ensures Run(MarkdownEnv(), root, [File("a.md", x)], map[])
         == State([x], MarkdownDocs(root, x), [FileProcessed(root + ["a.md"]), Wrote(IndexPath(root), [x])])
  {
    var env := MarkdownEnv();
    var listing := [File("a.md", x)];
    var afterA := State([x], map[], [FileProcessed(root + ["a.md"])]);
    assert ProcessChild(env, root, File("a.md", x), Fresh(map[])) == afterA;
    assert listing[1..] == [];
    assert ProcessEntries(env, root, listing, Fresh(map[])) == afterA;
    assert Join([x], Separator) == x;
  }

  lemma MarkdownRelisted(root: Path, x: string)
    ensures Relisted(root, [File("a.md", x)], MarkdownDocs(root, x)) == [File("a.md", x), File(IndexFileName, x)]
  {
    var listing := [File("a.md", x)];
    assert listing[1..] == [];
    assert Relist(root, listing, MarkdownDocs(root, x)) == listing;
  }

  lemma MarkdownSecondRun(root: Path, x: string)
    ensures var second := Run(MarkdownEnv(), root, [File("a.md", x), File(IndexFileName, x)], MarkdownDocs(root, x));
      && second.entries == [x, x]
      && second.docs[IndexPath(root)] == x + Separator + x
  {
    var env := MarkdownEnv();
    var docs := MarkdownDocs(root, x);
    var listing := [File("a.md", x), File(IndexFileName, x)];
    var afterA := State([x], docs, [FileProcessed(root + ["a.md"])]);
    var afterIndex := State([x, x], docs, afterA.log + [FileProcessed(root + [IndexFileName])]);
    var tail := [File(IndexFileName, x)];
    assert IsSourceFile(env, "a.md") && IsSourceFile(env, IndexFileName);
    FileChild(env, root, "a.md", x, Fresh(docs));
    FileChild(env, root, IndexFileName, x, afterA);
    assert listing[0] == File("a.md", x) && listing[1..] == tail;
    assert tail[0] == File(IndexFileName, x) && tail[1..] == [];
    LoopStep(env, root, tail, afterA, afterIndex, afterIndex);
    LoopStep(env, root, listing, Fresh(docs), afterA, afterIndex);
    JoinSnoc([x], x, Separator);
    assert [x] + [x] == [x, x];
  }
}

=== FILE: traversal_spec.dfy ===
/**
  Reference descriptions of a walk, written directly over the tree and
  independent of how the processor threads its state: which directories it
  writes and in what order, which files it hands to the file processor, and
  what each pushed entry must be.
 */
module TraversalSpec {
  import opened FileTree
  import opened EntryList
  import opened DirectoryProcessor

  /** The index documents of `dirs`, in the same order. */
  function IndexPaths(dirs: seq<Path>): (files: seq<Path>)
    ensures |files| == |dirs|
  {
    if |dirs| == 0 then [] else [IndexPath(dirs[0])] + IndexPaths(dirs[1..])
  }

  lemma {:induction false} IndexPathsConcat(a: seq<Path>, b: seq<Path>)
    ensures IndexPaths(a + b) == IndexPaths(a) + IndexPaths(b)
    decreases |a|
  {
    if |a| > 0 {
      assert (a + b)[1..] == a[1..] + b;
      IndexPathsConcat(a[1..], b);
    } else {
      assert a + b == b;
    }
  }

  lemma {:induction false} IndexPathsElements(dirs: seq<Path>, i: nat)
    requires i < |dirs|
    ensures IndexPaths(dirs)[i] == IndexPath(dirs[i])
    decreases i
  {
    if i > 0 {
      IndexPathsElements(dirs[1..], i - 1);
    }
  }

  lemma IndexPathInjective(a: Path, b: Path)
    ensures IndexPath(a) == IndexPath(b) ==> a == b
  {
    if IndexPath(a) == IndexPath(b) {
      assert |a| == |b|;
      assert a == IndexPath(a)[..|a|];
      assert b == IndexPath(b)[..|b|];
    }
  }

  /** Distinct directories have distinct index documents. */
  lemma IndexPathsDistinct(dirs: seq<Path>)
    requires NoDuplicates(dirs)
    ensures NoDuplicates(IndexPaths(dirs))
  {
    var files := IndexPaths(dirs);
    forall i, j | 0 <= i < j < |files|
      ensures files[i] != files[j]
    {
      IndexPathsElements(dirs, i);
      IndexPathsElements(dirs, j);
      IndexPathInjective(dirs[i], dirs[j]);
    }
  }

  /** The source files of the tree under `dir`, in the order the walk meets them. */
  function SourceFiles(env: Env, dir: Path, children: seq<Node>): seq<Path>
    decreases children
  {
    if |children| == 0 then []
    else
      var first := match children[0]
        case Dir(name, sub) => SourceFiles(env, dir + [name], sub)
        case File(name, _) => if IsSourceFile(env, name) then [dir + [name]] else [];
      first + SourceFiles(env, dir, children[1..])
  }

  datatype EventKind = WriteKind | ProcessFileKind | SummarizeKind

  /** An event with the entry lists left out: what kind of effect, on which path. */
  datatype Step = Step(kind: EventKind, path: Path)

  function StepOf(e: Event): Step {
    match e
    case Wrote(path, _) => Step(WriteKind, path)
    case FileProcessed(path) => Step(ProcessFileKind, path)
    case IndexSummarized(path) => Step(SummarizeKind, path)
  }

  function Steps(log: seq<Event>): (steps: seq<Step>)
    ensures |steps| == |log|
  {
    if |log| == 0 then [] else [StepOf(log[0])] + Steps(log[1..])
  }

  lemma {:induction false} StepsConcat(a: seq<Event>, b: seq<Event>)
    ensures Steps(a + b) == Steps(a) + Steps(b)
    decreases |a|
  {
    if |a| > 0 {
      assert (a + b)[1..] == a[1..] + b;
      StepsConcat(a[1..], b);
    } else {
      assert a + b == b;
    }
  }

  /**
    The effects of processing the directory `dir` with listing `children`, in
    order: the effects of its listing, then the write of its index document.
   */
  function WalkSteps(env: Env, dir: Path, children: seq<Node>): seq<Step>
    decreases children, 1
  {
    ListingSteps(env, dir, children) + [Step(WriteKind, IndexPath(dir))]
  }

  /**
    The effects of handling a listing, child by child: for a subdirectory, all
    the effects of processing it and then the summary of its index document;
    for a source file, one call of the file processor; for any other file,
    nothing.
   */
  function ListingSteps(env: Env, dir: Path, children: seq<Node>): seq<Step>
    decreases children, 0
  {
    if |children| == 0 then []
    else
      var first := match children[0]
        case Dir(name, sub) => WalkSteps(env, dir + [name], sub) + [Step(SummarizeKind, IndexPath(dir + [name]))]
        case File(name, _) => if IsSourceFile(env, name) then [Step(ProcessFileKind, dir + [name])] else [];
      first + ListingSteps(env, dir, children[1..])
  }

  /** The paths of the steps of one kind, in order. */
  function PathsOf(steps: seq<Step>, kind: EventKind): (paths: seq<Path>)
    ensures |paths| <= |steps|
  {
    if |steps| == 0 then []
    else (if steps[0].kind == kind then [steps[0].path] else []) + PathsOf(steps[1..], kind)
  }

  lemma {:induction false} PathsOfConcat(a: seq<Step>, b: seq<Step>, kind: EventKind)
    ensures PathsOf(a + b, kind) == PathsOf(a, kind) + PathsOf(b, kind)
    decreases |a|
  {
    if |a| > 0 {
      assert (a + b)[1..] == a[1..] + b;
      PathsOfConcat(a[1..], b, kind);
    } else {
      assert a + b == b;
    }
  }

  /**
    What each entry of a walk is, in the order it is pushed: a folder header,
    a processed source file, or the summary of a subdirectory's document.
   */
  datatype Slot =
    | HeaderSlot(name: Name)
    | FileSlot(path: Path, name: Name, content: string)
    | SummarySlot(dir: Path)

  /**
    The entries the walk of the tree under `dir` pushes, as slots: for each
    subdirectory its header, then everything pushed inside it, then its
    summary; for each source file one entry; nothing for other files.
   */
  function Skeleton(env: Env, dir: Path, children: seq<Node>): seq<Slot>
    decreases children
  {
    if |children| == 0 then []
    else
      var first := match children[0]
        case Dir(name, sub) => [HeaderSlot(name)] + Skeleton(env, dir + [name], sub) + [SummarySlot(dir + [name])]
        case File(name, content) => if IsSourceFile(env, name) then [FileSlot(dir + [name], name, content)] else [];
      first + Skeleton(env, dir, children[1..])
  }

  /**
    The text a slot must hold, given every entry pushed before it. A summary
    slot holds the summary of the join of ALL earlier entries, because the
    subdirectory's document is written from the one shared list.
   */
  function Expected(env: Env, slot: Slot, before: seq<string>): string {
    match slot
    case HeaderSlot(name) => FolderHeader(name)
    case FileSlot(path, name, content) => env.processFile(path, name, content)
    case SummarySlot(_) => env.summarize(Join(before, Separator))
  }

  /** From position `base` on, `entries` holds exactly the texts `slots` prescribe. */
  predicate Matches(env: Env, entries: seq<string>, base: nat, slots: seq<Slot>) {
    && |entries| == base + |slots|
    && forall i :: 0 <= i < |slots| ==> entries[base + i] == Expected(env, slots[i], entries[..base + i])
  }
}

=== FILE: walk_order.dfy ===
/**
  The order of the processor's effects: which index documents it writes, which
  files it hands to the file processor and which documents it summarises, each
  compared with the reference descriptions of the walk.
 */
module WalkOrder {
  import opened FileTree
  import opened DirectoryProcessor
  import opened TraversalSpec

  lemma StepsSnoc(log: seq<Event>, e: Event)
    ensures Steps(log + [e]) == Steps(log) + [StepOf(e)]
  {
    StepsConcat(log, [e]);
    assert [e][1..] == [];
  }

  /**
    Processing a directory adds to the log exactly the effects the reference
    walk prescribes, in the same order.
   */
  lemma {:induction false} DirectoryTrace(env: Env, dir: Path, children: seq<Node>, st: State)
    decreases children, 2
    ensures Steps(ProcessDirectory(env, dir, children, st).log) == Steps(st.log) + WalkSteps(env, dir, children)
  {
    var handled := ProcessEntries(env, dir, children, st);
    EntriesTrace(env, dir, children, st);
    StepsSnoc(handled.log, Wrote(IndexPath(dir), handled.entries));
  }

  lemma {:induction false} EntriesTrace(env: Env, dir: Path, children: seq<Node>, st: State)
    decreases children, 1
    ensures Steps(ProcessEntries(env, dir, children, st).log) == Steps(st.log) + ListingSteps(env, dir, children)
  {
    if |children| > 0 {
      var mid := ProcessChild(env, dir, children[0], st);
      ChildTrace(env, dir, children[0], st);
      EntriesTrace(env, dir, children[1..], mid);
      ListingStepsCons(env, dir, children);
      assert ProcessEntries(env, dir, children, st) == ProcessEntries(env, dir, children[1..], mid);
    }
  }

  /** The effects of a listing are those of its first child followed by those of the rest. */
  lemma ListingStepsCons(env: Env, dir: Path, children: seq<Node>)
    requires |children| > 0
    ensures ListingSteps(env, dir, children) == ListingSteps(env, dir, [children[0]]) + ListingSteps(env, dir, children[1..])
  {
    assert [children[0]][1..] == [];
  }

  lemma {:induction false} ChildTrace(env: Env, dir: Path, child: Node, st: State)
    decreases child, 0
    ensures Steps(ProcessChild(env, dir, child, st).log) == Steps(st.log) + ListingSteps(env, dir, [child])
  {
    assert [child][1..] == [];
    match child
    case Dir(name, sub) =>
      var fullPath := dir + [name];
      var withHeader := st.(entries := st.entries + [FolderHeader(name)]);
      var visited := ProcessDirectory(env, fullPath, sub, withHeader);
      DirectoryTrace(env, fullPath, sub, withHeader);
      StepsSnoc(visited.log, IndexSummarized(IndexPath(fullPath)));
    case File(name, content) =>
      if IsSourceFile(env, name) {
        StepsSnoc(st.log, FileProcessed(dir + [name]));
      }
  }

  lemma PathsOfSingle(step: Step, kind: EventKind)
    ensures PathsOf([step], kind) == if step.kind == kind then [step.path] else []
  {
    assert [step][1..] == [];
  }

  /**
    Among the effects of processing a directory: the writes are the index
    documents of its subtree in post-order, the summaries are the documents of
    the directories strictly below it in post-order, and the file-processor
    calls are its source files in walk order.
   */
  lemma {:induction false} WalkProjections(env: Env, dir: Path, children: seq<Node>)
    decreases children, 1
    ensures PathsOf(WalkSteps(env, dir, children), WriteKind) == IndexPaths(PostOrder(dir, children))
    ensures PathsOf(WalkSteps(env, dir, children), SummarizeKind) == IndexPaths(Descendants(dir, children))
    ensures PathsOf(WalkSteps(env, dir, children), ProcessFileKind) == SourceFiles(env, dir, children)
  {
    var listing := ListingSteps(env, dir, children);
    var write := Step(WriteKind, IndexPath(dir));
    ListingProjections(env, dir, children);
    PathsOfConcat(listing, [write], WriteKind);
    PathsOfConcat(listing, [write], SummarizeKind);
    PathsOfConcat(listing, [write], ProcessFileKind);
    PathsOfSingle(write, WriteKind);
    PathsOfSingle(write, SummarizeKind);
    PathsOfSingle(write, ProcessFileKind);
    IndexPathsConcat(Descendants(dir, children), [dir]);
    assert IndexPaths([dir]) == [IndexPath(dir)];
  }

  lemma {:induction false} ListingProjections(env: Env, dir: Path, children: seq<Node>)
    decreases children, 0
    ensures PathsOf(ListingSteps(env, dir, children), WriteKind) == IndexPaths(Descendants(dir, children))
    ensures PathsOf(ListingSteps(env, dir, children), SummarizeKind) == IndexPaths(Descendants(dir, children))
    ensures PathsOf(ListingSteps(env, dir, children), ProcessFileKind) == SourceFiles(env, dir, children)
  {
    if |children| > 0 {
      var rest := ListingSteps(env, dir, children[1..]);
      ListingProjections(env, dir, children[1..]);
      match children[0]
      case Dir(name, sub) =>
        WalkProjections(env, dir + [name], sub);
        DirProjections(env, dir, children);
      case File(_, _) =>
        FileProjections(env, dir, children);
    }
  }

  /** The step of `ListingProjections` for a listing that starts with a subdirectory. */
  lemma DirProjections(env: Env, dir: Path, children: seq<Node>)
    requires |children| > 0 && children[0].Dir?
    requires var d, sub := dir + [children[0].name], children[0].children;
      && PathsOf(WalkSteps(env, d, sub), WriteKind) == IndexPaths(PostOrder(d, sub))
      && PathsOf(WalkSteps(env, d, sub), SummarizeKind) == IndexPaths(Descendants(d, sub))
      && PathsOf(WalkSteps(env, d, sub), ProcessFileKind) == SourceFiles(env, d, sub)
    requires PathsOf(ListingSteps(env, dir, children[1..]), WriteKind) == IndexPaths(Descendants(dir, children[1..]))
    requires PathsOf(ListingSteps(env, dir, children[1..]), SummarizeKind) == IndexPaths(Descendants(dir, children[1..]))
    requires PathsOf(ListingSteps(env, dir, children[1..]), ProcessFileKind) == SourceFiles(env, dir, children[1..])
    ensures PathsOf(ListingSteps(env, dir, children), WriteKind) == IndexPaths(Descendants(dir, children))
    ensures PathsOf(ListingSteps(env, dir, children), SummarizeKind) == IndexPaths(Descendants(dir, children))
    ensures PathsOf(ListingSteps(env, dir, children), ProcessFileKind) == SourceFiles(env, dir, children)
  {
    var d, sub := dir + [children[0].name], children[0].children;
    var rest := ListingSteps(env, dir, children[1..]);
    var walk := WalkSteps(env, d, sub);
    var summary := Step(SummarizeKind, IndexPath(d));
    var first := walk + [summary];
    assert ListingSteps(env, dir, children) == first + rest;
    assert Descendants(dir, children) == PostOrder(d, sub) + Descendants(dir, children[1..]);
    assert SourceFiles(env, dir, children) == SourceFiles(env, d, sub) + SourceFiles(env, dir, children[1..]);
    IndexPathsConcat(PostOrder(d, sub), Descendants(dir, children[1..]));
    assert PathsOf(first, WriteKind) == IndexPaths(PostOrder(d, sub)) by {
      PathsOfConcat(walk, [summary], WriteKind);
      PathsOfSingle(summary, WriteKind);
    }
    assert PathsOf(first, SummarizeKind) == IndexPaths(PostOrder(d, sub)) by {
      PathsOfConcat(walk, [summary], SummarizeKind);
      PathsOfSingle(summary, SummarizeKind);
      IndexPathsConcat(Descendants(d, sub), [d]);
      assert IndexPaths([d]) == [IndexPath(d)];
    }
    assert PathsOf(first, ProcessFileKind) == SourceFiles(env, d, sub) by {
      PathsOfConcat(walk, [summary], ProcessFileKind);
      PathsOfSingle(summary, ProcessFileKind);
    }
    PathsOfConcat(first, rest, WriteKind);
    PathsOfConcat(first, rest, SummarizeKind);
    PathsOfConcat(first, rest, ProcessFileKind);
  }

  /** The step of `ListingProjections` for a listing that starts with a file. */
  lemma FileProjections(env: Env, dir: Path, children: seq<Node>)
    requires |children| > 0 && children[0].File?
    requires PathsOf(ListingSteps(env, dir, children[1..]), WriteKind) == IndexPaths(Descendants(dir, children[1..]))
    requires PathsOf(ListingSteps(env, dir, children[1..]), SummarizeKind) == IndexPaths(Descendants(dir, children[1..]))
    requires PathsOf(ListingSteps(env, dir, children[1..]), ProcessFileKind) == SourceFiles(env, dir, children[1..])
    ensures PathsOf(ListingSteps(env, dir, children), WriteKind) == IndexPaths(Descendants(dir, children))
    ensures PathsOf(ListingSteps(env, dir, children), SummarizeKind) == IndexPaths(Descendants(dir, children))
    ensures PathsOf(ListingSteps(env, dir, children), ProcessFileKind) == SourceFiles(env, dir, children)
  {
    var name := children[0].name;
    var rest := ListingSteps(env, dir, children[1..]);
    assert Descendants(dir, children) == Descendants(dir, children[1..]);
    if IsSourceFile(env, name) {
      var call := Step(ProcessFileKind, dir + [name]);
      assert ListingSteps(env, dir, children) == [call] + rest;
      assert SourceFiles(env, dir, children) == [dir + [name]] + SourceFiles(env, dir, children[1..]);
      PathsOfConcat([call], rest, WriteKind);
      PathsOfConcat([call], rest, SummarizeKind);
      PathsOfConcat([call], rest, ProcessFileKind);
      PathsOfSingle(call, WriteKind);
      PathsOfSingle(call, SummarizeKind);
      PathsOfSingle(call, ProcessFileKind);
    } else {
      assert ListingSteps(env, dir, children) == rest;
      assert SourceFiles(env, dir, children) == SourceFiles(env, dir, children[1..]);
    }
  }

  /** The effects of a whole run are exactly those of the reference walk of the tree. */
  lemma RunTrace(env: Env, root: Path, children: seq<Node>, docs: map<Path, string>)
    ensures Steps(Run(env, root, children, docs).log) == WalkSteps(env, root, children)
  {
    DirectoryTrace(env, root, children, Fresh(docs));
    assert Steps(Fresh(docs).log) == [];
  }

  /**
    A run writes the index documents of the directories below the root in
    post-order, children before parents, and then the root's, last.
   */
  lemma RunWritesPostOrder(env: Env, root: Path, children: seq<Node>, docs: map<Path, string>)
    ensures PathsOf(Steps(Run(env, root, children, docs).log), WriteKind)
         == IndexPaths(Descendants(root, children)) + [IndexPath(root)]
  {
    RunTrace(env, root, children, docs);
    WalkProjections(env, root, children);
    IndexPathsConcat(Descendants(root, children), [root]);
    assert IndexPaths([root]) == [IndexPath(root)];
  }

  /** A run over a tree with distinct sibling names writes each index document at most once. */
  lemma EachDirectoryWrittenOnce(env: Env, root: Path, children: seq<Node>, docs: map<Path, string>)
    requires WellFormed(children)
    ensures NoDuplicates(PathsOf(Steps(Run(env, root, children, docs).log), WriteKind))
  {
    RunTrace(env, root, children, docs);
    WalkProjections(env, root, children);
    PostOrderDistinct(root, children);
    IndexPathsDistinct(PostOrder(root, children));
  }

  /**
    A run hands exactly the source files of the tree to the file processor,
    once each, in walk order; a file whose extension is not supported is never
    handed over.
   */
  lemma SourceFilesProcessed(env: Env, root: Path, children: seq<Node>, docs: map<Path, string>)
    ensures PathsOf(Steps(Run(env, root, children, docs).log), ProcessFileKind) == SourceFiles(env, root, children)
  {
    RunTrace(env, root, children, docs);
    WalkProjections(env, root, children);
  }

  /**
    A run summarises the index document of every directory below the root,
    in post-order, and never the root's own document.
   */
  lemma SubdirectoriesSummarized(env: Env, root: Path, children: seq<Node>, docs: map<Path, string>)
    ensures PathsOf(Steps(Run(env, root, children, docs).log), SummarizeKind) == IndexPaths(Descendants(root, children))
  {
    RunTrace(env, root, children, docs);
    WalkProjections(env, root, children);
  }
}
